=== FILE: README.md ===
# hbd-bot digest compiler, modelled in Dafny

hbd-bot texts its users a daily digest of upcoming birthdays. This project
models the part that decides who gets a text and what it says. The sweeper
(`sms-sweeper/src/lib.rs`) does this in five steps:

- it computes each reminder's next birthday against the user's local date;
- it checks the user's send hour and the 12-hour cooldown;
- it selects and sorts the birthdays inside the user's notice window;
- it packs them greedily into one SMS of at most 160 bytes that ends with the
  product link;
- it does this for every user, in order.

The model also covers two pieces of the web dashboard:

- the dashboard's copy of the birthday calculation and its reminder list
  (`web/src/controllers/auth.rs`);
- the validation in the settings update handler
  (`web/src/controllers/settings.rs`).

The modules follow the program's structure:

- `RustInt`: Rust's wrapping `as i32` and its truncating `/` and `%`.
- `Text`: UTF-8 encoding, decimal rendering and padding.
- `FilterMap`: keeping the present values of a list of optional results, as `filter_map` and the `if let Some(..)` push loops do.
- `Calendar`: chrono's proleptic Gregorian `NaiveDate`: `with_year`, date order and day counts.
- `Recurrence`: `calculate_birthday_info`, with "today" as a parameter. It serves both the sweeper (user-local date) and the dashboard (UTC date).
- `Records`: users and reminders, and the two collaborators the sweeper consults: the time-zone database and the RFC 3339 parser. Both are abstract functions.
- `SendGate`: `is_send_time_for_user` and `was_notified_recently`.
- `Selector`: `get_reminders_to_send`, with its stable sort.
- `Composer`: `ordinal_suffix` and `format_birthday_message`.
- `Digest`: `get_birthday_messages`, as a pure function over the fetched users and reminders.
- `Display`: `convert_reminders_to_display` and the `%Y-%m-%d` date rendering.
- `Settings`: the checks and outcomes of `update_settings`.

Modelling notes:

- Instants are integer nanoseconds.
- Stored birth timestamps appear already decoded: `None` stands for a timestamp chrono cannot decode.
- A Rust `String` holds the UTF-8 encoding of its text, and `.len()` counts bytes. The texts the composer builds are therefore byte sequences, and every length test is on their length. Names are encoded with `Text.Utf8`; the fixed parts of a message are ASCII.
- Three behaviours of the code a reader may not expect, modelled as written:
  - A February 29 birthday is tried in the current year and the next year only. The calculation fails, and the reminder is skipped, whenever the next year is a common year and this year's February 29 is either missing or already past. That covers the common years before a common year, and also March 1 to December 31 of every leap year (born 2000-02-29, today 2024-03-01: `Recurrence.LeapDayPassedInLeapYear`). Nothing searches further, and nothing moves the date to February 28, despite the comment at `sms-sweeper/src/lib.rs:59`. `Recurrence.NextOccurrenceFailsExactly` and `Display.UtcBirthdayInfo` state exactly when this happens; `Recurrence.NextOccurrenceFailsOnlyForLeapDay` states only that no other birthday fails.
  - The composer can drop a candidate without any overflow marker: exactly one candidate left over is never announced (`Composer.SingleLeftoverUnmarked`, `Composer.SecondOfTwoDropped`).
  - With three or more candidates, the loop stops after the first line whenever that line and the marker for the rest fit, even if more lines would fit (`Composer.FirstLineThenMarker`).

## Model

| member | source | states |
|---|---|---|
| `RustInt.AsI32` | sms-sweeper/src/lib.rs:175 | `days_notice as i32` lands in the i32 range, differs from the input by a multiple of 2^32, and leaves in-range values unchanged |
| `RustInt.TruncDivRem` | sms-sweeper/src/lib.rs:296-298 | Rust's truncating quotient and remainder reassemble the dividend; the remainder is smaller than the divisor and never has the opposite sign |
| `Text.Utf8Append` | sms-sweeper/src/lib.rs:227-229 | the bytes of two texts placed one after the other are the bytes of the first, then those of the second, so `.len()` adds up over `format!` |
| `Text.AsciiBytesAreUtf8` | sms-sweeper/src/lib.rs:200 | a text is ASCII exactly when its encoding takes one byte per character, and then the bytes are the character codes |
| `Text.NatToString` | sms-sweeper/src/lib.rs:263 | the decimal rendering `format!` produces is at least one digit, has no leading zero unless it is "0", and reads back as the number |
| `Text.CanonicalRoundTrip` | sms-sweeper/src/lib.rs:263 | every digit string without a leading zero is the rendering of the number it denotes, so the rendering is the one canonical decimal form |
| `Text.IntToString` | sms-sweeper/src/lib.rs:305 | `format!("{}", n)` starts with a minus sign exactly for a negative number; what follows the sign is canonical digits that read back as the magnitude |
| `Text.IntToStringInjective` | sms-sweeper/src/lib.rs:305 | different integers are never rendered as the same text |
| `Text.PadNatRoundTrip` | web/src/controllers/auth.rs:176 | zero padding keeps the value a digit string denotes |
| `Calendar.WithYear` | sms-sweeper/src/lib.rs:43 | a moved date keeps month and day and takes the requested year |
| `Calendar.DaysBetween` | sms-sweeper/src/lib.rs:67 | the signed day distance is not negative exactly when the earlier date is on or before the later one, and zero exactly for the same date; `Calendar.DaysBetweenCountsDays` shows it is the number of calendar days in between |
| `Calendar.NextDay` | sms-sweeper/src/lib.rs:67 | the calendar day after a date comes strictly after it |
| `Calendar.NextDayIsOneDay` | sms-sweeper/src/lib.rs:67 | from a date to the calendar day after it, `num_days` is 1, across month and year ends |
| `Calendar.DaysBetweenCountsSteps` | sms-sweeper/src/lib.rs:67 | `n` calendar days after a date, `num_days` is `n` |
| `Calendar.DaysBetweenCountsDays` | sms-sweeper/src/lib.rs:67 | every date on or after a date is reached from it in exactly `num_days` steps of one day |
| `Calendar.WithYearFails` | sms-sweeper/src/lib.rs:43 | `with_year` fails exactly for February 29 moved into a common year |
| `Calendar.DayNumberOrder` | sms-sweeper/src/lib.rs:47 | comparing dates (`this_year_bd >= today`) agrees with comparing their day counts, both ways, and equal counts mean equal dates |
| `Calendar.DaysBeforeYearMonotone` | sms-sweeper/src/lib.rs:67 | each later year starts at least 365 days after the earlier one |
| `Calendar.NextYearDistance` | sms-sweeper/src/lib.rs:67 | a date next year is less than two years' worth of days away |
| `Recurrence.NextOccurrence` | sms-sweeper/src/lib.rs:43-65 | the occurrence keeps the birth month and day, is on or after today, and lies in this year or the next; next year is used only when this year's date is missing or past; it fails exactly when next year's date is missing too |
| `Recurrence.NextOccurrenceIsEarliest` | sms-sweeper/src/lib.rs:45-49 | no anniversary on or after today comes before the one chosen |
| `Recurrence.NextOccurrenceFailsOnlyForLeapDay` | sms-sweeper/src/lib.rs:58-63 | a failure means a February 29 birthday and a common year after today's |
| `Recurrence.NextOccurrenceFailsExactly` | sms-sweeper/src/lib.rs:43-65 | the calculation fails exactly for a February 29 birthday when next year is common and this year's February 29 is missing or already past |
| `Recurrence.LeapDayPassedInLeapYear` | sms-sweeper/src/lib.rs:47-54 | born 2000-02-29 and counted from 2024-03-01, the calculation fails |
| `Recurrence.CalculateBirthdayInfo` | sms-sweeper/src/lib.rs:20-77 | an undecodable timestamp is `InvalidTimestamp`; on success the day count is the distance from today to the occurrence, between 0 and 731, and the age is the occurrence year minus the birth year |
| `Recurrence.BirthdayIsToday` | sms-sweeper/src/lib.rs:45-67 | the day count is zero exactly when today has the birth month and day |
| `Recurrence.AgeTurning` | sms-sweeper/src/lib.rs:45-65 | the age is this year's while this year's birthday is ahead or today, and next year's otherwise |
| `Display.UtcBirthdayInfo` | web/src/controllers/auth.rs:131-166 | counted from the UTC date, the calculation fails exactly for an undecodable timestamp or a February 29 birthday whose date this year is missing or past while next year is common; on success the count is not negative and the age is this year's or next year's |
| `SendGate.IsSendTime` | sms-sweeper/src/lib.rs:79-107 | the gate is open exactly when the zone resolves and its local hour equals `send_hour`; an open gate implies a valid hour |
| `SendGate.HoursSince` | sms-sweeper/src/lib.rs:133 | `num_hours` is the elapsed time in whole hours, truncated toward zero for negative elapsed time as well |
| `SendGate.OneSendHour` | sms-sweeper/src/lib.rs:90-92 | all instants that pass read the same local hour |
| `SendGate.HoursSinceBelowCooldown` | sms-sweeper/src/lib.rs:133-134 | truncated whole hours are below 12 exactly when under twelve hours have elapsed, including negative elapsed time |
| `SendGate.WasNotifiedRecently` | sms-sweeper/src/lib.rs:109-145 | recent implies a stored stamp that parses with a `Z` appended |
| `SendGate.CooldownWindow` | sms-sweeper/src/lib.rs:109-145 | recent exactly when a parseable stamp lies less than twelve hours before now; a missing or unparseable stamp is never recent, and a future one always is |
| `SendGate.CooldownAfterDelivery` | sms-sweeper/src/lib.rs:132-144 | a delivery at `sent` blocks exactly the evaluations before `sent` + 12 h |
| `Selector.CandidateOf` | sms-sweeper/src/lib.rs:164-189 | a reminder contributes exactly when its calculation succeeds and `0 <= days_until <= days_notice as i32`, with its name, day count and age |
| `Selector.Kept` | sms-sweeper/src/lib.rs:163-191 | no more candidates than reminders, all inside the window |
| `Selector.KeptAppend` | sms-sweeper/src/lib.rs:163-191 | filtering works reminder by reminder, keeping reminder order |
| `Selector.KeptMembers` | sms-sweeper/src/lib.rs:163-191 | a candidate is kept exactly when some reminder produces it |
| `Selector.InsertByDays` | sms-sweeper/src/lib.rs:194 | inserting into a sorted list keeps it sorted and adds exactly the new element |
| `Selector.InsertStable` | sms-sweeper/src/lib.rs:194 | the inserted element goes after every element with the same day count |
| `Selector.SortByDays` | sms-sweeper/src/lib.rs:194 | `sort_by_key` gives a non-decreasing order that is a permutation of the input and keeps input order among equal day counts |
| `Selector.GetRemindersToSend` | sms-sweeper/src/lib.rs:147-196 | an unresolvable zone gives nothing; otherwise the result is the kept candidates for the local date, sorted and stable on ties, all in the window |
| `Selector.SelectedExactly` | sms-sweeper/src/lib.rs:155-195 | a candidate is selected exactly when the zone resolves and some reminder yields it for the local date |
| `Composer.OrdinalSuffixIsEnglish` | sms-sweeper/src/lib.rs:295-306 | for ages of zero and up the suffix is the English one: "th" for a tens digit of 1, then "st"/"nd"/"rd" by the last digit |
| `Composer.OrdinalSuffix` | sms-sweeper/src/lib.rs:296-304 | the suffix is one of "st", "nd", "rd" and "th" |
| `Composer.Ordinal` | sms-sweeper/src/lib.rs:295-306 | the ordinal is the decimal rendering of the age followed by its two-letter suffix |
| `Composer.OrdinalSuffixNegative` | sms-sweeper/src/lib.rs:296-303 | with Rust's remainder, every negative age gets "th" |
| `Composer.OrdinalInjective` | sms-sweeper/src/lib.rs:305 | different ages never print the same ordinal |
| `Composer.DayTextInjective` | sms-sweeper/src/lib.rs:204-208 | "today", "tomorrow" and "in N days" never coincide for different day counts |
| `Composer.DayText` | sms-sweeper/src/lib.rs:204-208 | "today" exactly for 0, "tomorrow" exactly for 1, and otherwise "in ", the number and " days" |
| `Composer.Line` | sms-sweeper/src/lib.rs:210-215 | a line starts with the name's bytes and is at least 15 bytes longer than the name |
| `Composer.SuffixBytes` | sms-sweeper/src/lib.rs:200 | the link `\nhttps://hbd.bot` is 16 bytes, its UTF-8 encoding |
| `Composer.LineIsFormatted` | sms-sweeper/src/lib.rs:210-215 | a candidate's line is the encoding of the name, "'s ", the ordinal, " is " and the day text |
| `Composer.MoreTextIsFormatted` | sms-sweeper/src/lib.rs:263 | the overflow text is the encoding of "\n+ K more..." followed by the link |
| `Composer.Extend` | sms-sweeper/src/lib.rs:218-222 | adding line i, after a newline unless nothing is committed, gives the first i + 1 lines joined |
| `Composer.Pack` | sms-sweeper/src/lib.rs:203-280 | the committed text is always the newline-joined lines of a prefix of the candidates and still fits in 160 bytes with the link after it; the loop stops at the first point where all lines are in, the next line would not fit with the link, or (after the first line, with two or more left) the marker for the rest fits |
| `Composer.StartDetermined` | sms-sweeper/src/lib.rs:203-280 | any prefix packing that fits and satisfies that stopping rule is the one the loop produces |
| `Composer.Finish` | sms-sweeper/src/lib.rs:282-292 | the final text fits in 160 bytes and ends with the link |
| `Composer.FormatBirthdayMessage` | sms-sweeper/src/lib.rs:198-293 | the message never exceeds 160 bytes and always ends with `\nhttps://hbd.bot` |
| `Composer.MessageShape` | sms-sweeper/src/lib.rs:283-292 | the message is the committed lines, then the "+ K more..." marker counting every left-out candidate (only when K > 1 and it fits) or just the link |
| `Composer.FirstLineThenMarker` | sms-sweeper/src/lib.rs:262-270 | with three or more candidates, once the first line and the marker for the rest fit, the message is just those two |
| `Composer.AtMostOneLine` | sms-sweeper/src/lib.rs:226-279 | with three or more candidates, at most one line is ever committed |
| `Composer.FirstLineWithoutMarker` | sms-sweeper/src/lib.rs:262-292 | with three or more candidates, when the first line fits with the link but not with the marker, the message is that line and the link, and the rest go unmentioned |
| `Composer.EverythingFits` | sms-sweeper/src/lib.rs:229-235 | one or two candidates whose lines fit are all rendered, without a marker |
| `Composer.SingleLeftoverUnmarked` | sms-sweeper/src/lib.rs:283-292 | exactly one left-out candidate is dropped without a marker |
| `Composer.SecondOfTwoDropped` | sms-sweeper/src/lib.rs:238-275 | of two candidates that do not fit together, only the first is rendered and nothing mentions the second |
| `Composer.FirstLineTooLong` | sms-sweeper/src/lib.rs:276-279 | when the first line does not fit, no line is rendered: the marker for all candidates, or the bare link |
| `Composer.NoCandidates` | sms-sweeper/src/lib.rs:282-292 | with no candidates the message is the bare link |
| `Digest.DigestFor` | sms-sweeper/src/lib.rs:329-376 | a user gets a message exactly when the send hour matches, the cooldown is clear, the reminders were read and something is due; the message goes to that user's number and is the composed digest of the selection |
| `Digest.GetBirthdayMessages` | sms-sweeper/src/lib.rs:308-381 | at most one message per user, each within 160 bytes and ending with the link |
| `Digest.MessagesFollowUsers` | sms-sweeper/src/lib.rs:323-377 | message j is the digest of the user at a position that strictly increases with j: user order, no user twice |
| `Digest.SendersExactly` | sms-sweeper/src/lib.rs:323-377 | a user appears among the senders exactly when its digest is produced |
| `Digest.NothingDueNoMessage` | sms-sweeper/src/lib.rs:355-360 | a user none of whose reminders is in the window gets no message |
| `Digest.BirthdayTodayScenario` | sms-sweeper/src/lib.rs:323-377 | at the send hour, never notified, a notice period from 1 to 14 days, and one reminder whose birthday is today and whose line fits in 160 bytes with the link: exactly one message, that line ("... is today") followed by the link |
| `Display.YearText` | web/src/controllers/auth.rs:176 | `%Y` gives four digits denoting the year for years 0 to 9999, and a sign followed by digits denoting its magnitude otherwise |
| `Display.TwoDigits` | web/src/controllers/auth.rs:176 | `%m` and `%d` print two digits denoting the month or the day |
| `Display.FormatDate` | web/src/controllers/auth.rs:176 | `%Y-%m-%d` is the year text, a dash, two month digits, a dash and two day digits, ten characters for years 0 to 9999 |
| `Display.FormatDateRoundTrip` | web/src/controllers/auth.rs:175-178 | the rendered `YYYY-MM-DD` reads back as the birth date |
| `Display.FormatDateInjective` | web/src/controllers/auth.rs:176 | different dates never render the same |
| `Display.BirthdateText` | web/src/controllers/auth.rs:175-178 | a decodable date is shown as its `%Y-%m-%d` rendering, which reads back as it; an undecodable one as "Unknown", which reads back as no date |
| `Display.DisplayOf` | web/src/controllers/auth.rs:171-192 | a row exists exactly when the calculation succeeds; it copies id and name, shows the birth date as its `%Y-%m-%d` rendering, and takes days and age from the calculation |
| `Display.ConvertRemindersToDisplay` | web/src/controllers/auth.rs:168-195 | no more rows than reminders; every row shows a readable date and a day count between 0 and 731 |
| `Display.ConvertAppend` | web/src/controllers/auth.rs:168-195 | conversion works reminder by reminder, keeping stored order |
| `Display.ConvertMembers` | web/src/controllers/auth.rs:168-195 | a row is shown exactly when some reminder produces it |
| `Display.ConvertKeepsAll` | web/src/controllers/auth.rs:168-195 | when every calculation succeeds, every reminder is shown, one row each, in order |
| `Display.DisplayMatchesDigest` | web/src/controllers/auth.rs:172-186 | when the UTC date is the user's local date, a reminder in the digest is shown with the same name, day count and age |
| `Settings.ValidateSettings` | web/src/controllers/settings.rs:91-133 | accepted exactly when all three checks pass, with the form unchanged; a rejection echoes the form with an empty success message and names the first failing check, in the order notice, hour, zone |
| `Settings.StoredSettings` | web/src/controllers/settings.rs:136-143 | the store is asked to write exactly when validation accepts, and then exactly the submitted values |
| `Settings.UpdateSettings` | web/src/controllers/settings.rs:91-161 | redirect to `/settings?success=1` exactly when validation accepts and the store succeeds; a failed save re-renders the form with the save error; a rejection shows the validation page |
| `Settings.RejectedNeverStored` | web/src/controllers/settings.rs:92-133 | a rejected form is never stored, and the answer does not depend on the store |
| `Settings.StoredSettingsSound` | web/src/controllers/settings.rs:92-124 | stored settings have a notice period that `as i32` keeps as is, an hour between 0 and 23, and a listed zone |
| `Settings.ErrorMessagesDistinct` | web/src/controllers/settings.rs:94-152 | the three validation messages and the save message are pairwise different, so each page names one cause |

## Left out

- Database access (`get_all_users`, `get_reminders_by_user_id`, `update_user_settings`). Fetched users and reminders are inputs, a failed reminder fetch is `None`, and the store's outcome is a boolean. A failure of `get_all_users` aborts the sweep with an error in the source; the model starts from a list that was read.
- The SMS provider clients and the send loops in `sms-sweeper/src/main.rs` and `web/src/controllers/sweeper.rs` are network I/O. The loop at `web/src/controllers/sweeper.rs:34` skips the first message; it is not part of this model.
- The time-zone database, chrono's millisecond timestamp decoding and RFC 3339 parsing are abstract parameters (`ZoneLookup`, `Rfc3339Parser`, an optional decoded date). Their correctness is assumed, not modelled.
- The clock: `Utc::now()` in the dashboard becomes the parameter `utcToday`; the sweeper's current instant is a parameter.
- `Display.ConvertRemindersToDisplay`: the dashboard reads `Utc::now()` inside `calculate_birthday_info` (`web/src/controllers/auth.rs:137`) once per reminder (`web/src/controllers/auth.rs:172`); the model uses one `utcToday` for the whole list, so a conversion that runs across UTC midnight, where later rows count from the next day, is not modelled.
- `Composer.AtMostOneLine`: stated for at most 10000 candidates; with more, the count in "+ K more..." has five digits or more and the marker can be as long as a short line.
- `Composer.FirstLineWithoutMarker`: stated for at most 10000 candidates, for the same reason.
- chrono's supported year range: `with_year` can also fail for years outside it. The model's calendar is unbounded.
- Authentication (JWT cookies, the redirect to `/login`), AES-GCM, templates, routing and logging.
- `Settings.UpdateSettings`: the rendered HTML is modelled as the template's fields, not as markup.
- The integration tests in `sms-sweeper/tests/integration_tests.rs`: several of their expectations contradict `sms-sweeper/src/lib.rs`, and the model follows the library.

=== FILE: calendar.dfy ===
/**
 * The proleptic Gregorian calendar as chrono's `NaiveDate` implements it:
 * civil dates, `with_year`, chronological comparison, and the day count
 * behind `(a - b).num_days()`.
 */
module Calendar {
  import opened Wrappers

  predicate IsLeapYear(y: int)
  {
    y % 4 == 0 && (y % 100 != 0 || y % 400 == 0)
  }

  function DaysInMonth(y: int, m: int): int
    requires 1 <= m <= 12
  {
    if m == 2 then (if IsLeapYear(y) then 29 else 28)
    else if m == 4 || m == 6 || m == 9 || m == 11 then 30
    else 31
  }

  function YearLength(y: int): int
  {
    if IsLeapYear(y) then 366 else 365
  }

  datatype CivilDate = CivilDate(year: int, month: int, day: int)

  predicate ValidDate(d: CivilDate)
  {
    1 <= d.month <= 12 && 1 <= d.day <= DaysInMonth(d.year, d.month)
  }

  /** A calendar date that exists. */
  type Date = d: CivilDate | ValidDate(d) witness CivilDate(1970, 1, 1)

  /** Chronological order, `a <= b` on `NaiveDate`. */
  predicate OnOrBefore(a: CivilDate, b: CivilDate)
  {
    a.year < b.year
    || (a.year == b.year && a.month < b.month)
    || (a.year == b.year && a.month == b.month && a.day <= b.day)
  }

  /** `NaiveDate::with_year`: the same month and day in year `y`, when that date exists. */
  function WithYear(d: Date, y: int): (r: Option<Date>)
    ensures r.Some? ==> r.value.year == y && r.value.month == d.month && r.value.day == d.day
  {
    var moved := CivilDate(y, d.month, d.day);
    if ValidDate(moved) then Some(moved) else None
  }

  /** The only date `with_year` cannot move is February 29, into a common year. */
  lemma WithYearFails(d: Date, y: int)
    ensures WithYear(d, y).None? <==> d.month == 2 && d.day == 29 && !IsLeapYear(y)
  {
  }

  /** Days in the years before `y`, counted from 1 January of year 1. */
  function DaysBeforeYear(y: int): int
  {
    365 * (y - 1) + (y - 1) / 4 - (y - 1) / 100 + (y - 1) / 400
  }

  /** Days in the months of year `y` before month `m`. */
  function DaysBeforeMonth(y: int, m: int): int
    requires 1 <= m <= 12
  {
    var common :=
      if m == 1 then 0 else if m == 2 then 31 else if m == 3 then 59
      else if m == 4 then 90 else if m == 5 then 120 else if m == 6 then 151
      else if m == 7 then 181 else if m == 8 then 212 else if m == 9 then 243
      else if m == 10 then 273 else if m == 11 then 304 else 334;
    if m > 2 && IsLeapYear(y) then common + 1 else common
  }

  /** Position of a date on the day line; year 1, January 1 is day 0. */
  function DayNumber(d: Date): int
  {
    DaysBeforeYear(d.year) + DaysBeforeMonth(d.year, d.month) + d.day - 1
  }

  /** `(later - earlier).num_days()` for two dates. */
  function DaysBetween(earlier: Date, later: Date): (n: int)
    ensures n >= 0 <==> OnOrBefore(earlier, later)
    ensures n == 0 <==> earlier == later
  {
    DayNumberOrder(earlier, later);
    DayNumber(later) - DayNumber(earlier)
  }

  /** Floor division steps up by one exactly at multiples of the divisor. */
  lemma DivSteps(y: int)
    ensures y / 4 - (y - 1) / 4 == if y % 4 == 0 then 1 else 0
    ensures y / 100 - (y - 1) / 100 == if y % 100 == 0 then 1 else 0
    ensures y / 400 - (y - 1) / 400 == if y % 400 == 0 then 1 else 0
  {
  }

  lemma YearStep(y: int)
    ensures DaysBeforeYear(y + 1) == DaysBeforeYear(y) + YearLength(y)
  {
    DivSteps(y);
  }

  lemma MonthStep(y: int, m: int)
    requires 1 <= m < 12
    ensures DaysBeforeMonth(y, m + 1) == DaysBeforeMonth(y, m) + DaysInMonth(y, m)
  {
  }

  /** Every day of a year lies before the first day of the next one. */
  lemma DayOfYearBound(d: Date)
    ensures 0 <= DaysBeforeMonth(d.year, d.month) + d.day - 1 < YearLength(d.year)
  {
  }

  lemma {:induction false} DaysBeforeYearMonotone(a: int, b: int)
    requires a <= b
    ensures DaysBeforeYear(a) + 365 * (b - a) <= DaysBeforeYear(b)
    decreases b - a
  {
    if a < b {
      DaysBeforeYearMonotone(a, b - 1);
      YearStep(b - 1);
    }
  }

  lemma {:induction false} DaysBeforeMonthMonotone(y: int, m1: int, m2: int)
    requires 1 <= m1 < m2 <= 12
    ensures DaysBeforeMonth(y, m1) + DaysInMonth(y, m1) <= DaysBeforeMonth(y, m2)
    decreases m2 - m1
  {
    MonthStep(y, m1);
    if m1 + 1 < m2 {
      DaysBeforeMonthMonotone(y, m1 + 1, m2);
    }
  }

  /** The day count is strictly increasing in chronological order. */
  lemma DayNumberStrict(a: Date, b: Date)
    requires OnOrBefore(a, b) && a != b
    ensures DayNumber(a) < DayNumber(b)
  {
    if a.year < b.year {
      DayOfYearBound(a);
      YearStep(a.year);
      DaysBeforeYearMonotone(a.year + 1, b.year);
    } else if a.month < b.month {
      DaysBeforeMonthMonotone(a.year, a.month, b.month);
    }
  }

  /** Comparing dates and comparing their day counts agree, in both directions. */
  lemma DayNumberOrder(a: Date, b: Date)
    ensures OnOrBefore(a, b) <==> DayNumber(a) <= DayNumber(b)
    ensures a == b <==> DayNumber(a) == DayNumber(b)
  {
    if a != b {
      if OnOrBefore(a, b) {
        DayNumberStrict(a, b);
      } else {
        DayNumberStrict(b, a);
      }
    }
  }

  /** The calendar day after `d`: the next day of the month, else the first
      of the next month, else January 1 of the next year. */
  function NextDay(d: Date): (e: Date)
    ensures OnOrBefore(d, e) && e != d
  {
    if d.day < DaysInMonth(d.year, d.month) then CivilDate(d.year, d.month, d.day + 1)
    else if d.month < 12 then CivilDate(d.year, d.month + 1, 1)
    else CivilDate(d.year + 1, 1, 1)
  }

  /** The date `n` calendar days after `d`, stepping one day at a time. */
  function AddDays(d: Date, n: nat): Date
  {
    if n == 0 then d else NextDay(AddDays(d, n - 1))
  }

  /** One calendar step is one day on the day line. */
  lemma NextDayIsOneDay(d: Date)
    ensures DaysBetween(d, NextDay(d)) == 1
  {
    if d.day < DaysInMonth(d.year, d.month) {
    } else if d.month < 12 {
      MonthStep(d.year, d.month);
    } else {
      YearStep(d.year);
    }
  }

  /** Stepping `n` calendar days forward moves `n` days along the day line. */
  lemma {:induction false} DaysBetweenCountsSteps(d: Date, n: nat)
    ensures DaysBetween(d, AddDays(d, n)) == n
  {
    if n > 0 {
      DaysBetweenCountsSteps(d, n - 1);
      NextDayIsOneDay(AddDays(d, n - 1));
    }
  }

  /** `num_days` counts calendar days: every date on or after `d` is reached
      from `d` in exactly `DaysBetween(d, e)` steps of one day. */
  lemma DaysBetweenCountsDays(d: Date, e: Date)
    requires OnOrBefore(d, e)
    ensures AddDays(d, DaysBetween(d, e)) == e
  {
    var k := DaysBetween(d, e);
    DaysBetweenCountsSteps(d, k);
    DayNumberOrder(AddDays(d, k), e);
  }

  /** A date in the following year lies at most two years' worth of days after one in year `y`. */
  lemma NextYearDistance(a: Date, b: Date)
    requires b.year == a.year + 1
    ensures DaysBetween(a, b) < YearLength(a.year) + YearLength(b.year)
  {
    DayOfYearBound(a);
    DayOfYearBound(b);
    YearStep(a.year);
  }
}

=== FILE: composer.dfy ===
/**
 * The message composer: `ordinal_suffix` and `format_birthday_message`.
 * Candidate lines are packed greedily, in order, into one SMS of at most
 * 160 bytes that always ends with the product link; candidates that do not
 * make it in are summarised as "+ K more..." when there are at least two
 * of them and the marker fits. Texts are handled as the UTF-8 bytes a Rust
 * `String` holds, so `.len()` is the length of a byte sequence.
 */
module Composer {
  import opened Text
  import opened Selector
  import RustInt

  /** The link every message ends with: the bytes of "\nhttps://hbd.bot". */
  const Suffix: seq<byte> := AsciiBytes("\nhttps://hbd.bot")
  const MaxMessageBytes: int := 160
  const Newline: seq<byte> := AsciiBytes("\n")

  /** The link is 16 bytes, and they are its UTF-8 encoding. */
  lemma SuffixBytes()
    ensures |Suffix| == 16 && Suffix == Utf8("\nhttps://hbd.bot")
    ensures Newline == Utf8("\n")
  {
    AsciiBytesAreUtf8("\nhttps://hbd.bot");
    AsciiBytesAreUtf8("\n");
  }

  /** `ordinal_suffix`'s choice of letters, with Rust's truncating `%`:
      "th" for 11-13 modulo 100, otherwise by the last digit. */
  function OrdinalSuffix(n: int): (s: string)
    ensures s == "st" || s == "nd" || s == "rd" || s == "th"
  {
    var lastTwo := RustInt.TruncRem(n, 100);
    if 11 <= lastTwo <= 13 then "th"
    else
      var last := RustInt.TruncRem(n, 10);
      if last == 1 then "st" else if last == 2 then "nd" else if last == 3 then "rd" else "th"
  }

  /** English ordinal suffixes as a style guide states them: numbers whose
      tens digit is 1 take "th"; otherwise 1, 2, 3 as last digit take "st",
      "nd", "rd" and everything else "th". */
  function EnglishOrdinalSuffix(n: nat): string
  {
    if (n / 10) % 10 == 1 then "th"
    else if n % 10 == 1 then "st"
    else if n % 10 == 2 then "nd"
    else if n % 10 == 3 then "rd"
    else "th"
  }

  /** For ages of zero and up the source's suffixes are the English ones. */
  lemma OrdinalSuffixIsEnglish(n: int)
    requires n >= 0
    ensures OrdinalSuffix(n) == EnglishOrdinalSuffix(n)
  {
    LastTwoDigits(n);
  }

  /** The tens and units digits of `n` are those of `n % 100`. */
  lemma LastTwoDigits(n: nat)
    ensures (n / 10) % 10 == (n % 100) / 10
    ensures n % 10 == (n % 100) % 10
  {
    var q, r := n / 100, n % 100;
    assert n == 100 * q + r;
    assert n / 10 == 10 * q + r / 10;
    assert (10 * q + r / 10) % 10 == r / 10;
    assert n % 10 == r % 10;
  }

  /** A negative age always gets "th": Rust's remainder of a negative
      number is never 1, 2 or 3. */
  lemma OrdinalSuffixNegative(n: int)
    requires n < 0
    ensures OrdinalSuffix(n) == "th"
  {
  }

  /** `ordinal_suffix(n)`: the number followed by its suffix, "21st", "112th". */
  function Ordinal(n: int): (s: string)
    ensures |s| >= 3
    ensures s[..|s| - 2] == IntToString(n) && s[|s| - 2..] == OrdinalSuffix(n)
  {
    IntToString(n) + OrdinalSuffix(n)
  }

  /** "today", "tomorrow" or "in N days". */
  function DayText(daysUntil: int): (s: string)
    ensures |s| >= 5
    ensures s == "today" <==> daysUntil == 0
    ensures s == "tomorrow" <==> daysUntil == 1
    ensures daysUntil != 0 && daysUntil != 1 ==>
              |s| > 8 && s[..3] == "in " && s[3..|s| - 5] == IntToString(daysUntil) && s[|s| - 5..] == " days"
  {
    if daysUntil == 0 then "today"
    else if daysUntil == 1 then "tomorrow"
    else "in " + IntToString(daysUntil) + " days"
  }

  /** The age can be read back from its rendering: different ages never
      print the same ordinal. */
  lemma OrdinalInjective(a: int, b: int)
    requires Ordinal(a) == Ordinal(b)
    ensures a == b
  {
    var s := Ordinal(a);
    assert |OrdinalSuffix(a)| == 2 && |OrdinalSuffix(b)| == 2;
    assert IntToString(a) == s[..|s| - 2] == IntToString(b);
    IntToStringInjective(a, b);
  }

  /** The day count can be read back from its rendering. */
  lemma DayTextInjective(a: int, b: int)
    requires DayText(a) == DayText(b)
    ensures a == b
  {
    var s := DayText(a);
    if a != 0 && a != 1 && b != 0 && b != 1 {
      assert IntToString(a) == s[3..|s| - 5] == IntToString(b);
      IntToStringInjective(a, b);
    }
  }

  lemma NumberAscii(n: int)
    ensures IsAscii(IntToString(n))
  {
    var s := IntToString(n);
    if n < 0 {
      DigitsAscii(s[1..]);
      assert s == "-" + s[1..];
      AsciiAppend("-", s[1..]);
    } else {
      DigitsAscii(s);
    }
  }

  lemma OrdinalAscii(n: int)
    ensures IsAscii(Ordinal(n))
  {
    NumberAscii(n);
    AsciiAppend(IntToString(n), OrdinalSuffix(n));
  }

  lemma DayTextAscii(d: int)
    ensures IsAscii(DayText(d))
  {
    if d != 0 && d != 1 {
      NumberAscii(d);
      AsciiAppend("in ", IntToString(d));
      AsciiAppend("in " + IntToString(d), " days");
    }
  }

  /** What follows the name in a line: "'s 21st is tomorrow". */
  function Tail(c: Candidate): string
  {
    "'s " + Ordinal(c.ageTurning) + " is " + DayText(c.daysUntil)
  }

  lemma TailAscii(c: Candidate)
    ensures IsAscii(Tail(c))
  {
    OrdinalAscii(c.ageTurning);
    DayTextAscii(c.daysUntil);
    AsciiAppend("'s ", Ordinal(c.ageTurning));
    AsciiAppend("'s " + Ordinal(c.ageTurning), " is ");
    AsciiAppend("'s " + Ordinal(c.ageTurning) + " is ", DayText(c.daysUntil));
  }

  /** The rendered line of one candidate: the name's bytes, then the
      rest of the line, which is ASCII. */
  function Line(c: Candidate): (bs: seq<byte>)
    ensures |bs| >= |Utf8(c.name)| + 15
    ensures bs[..|Utf8(c.name)|] == Utf8(c.name)
  {
    Utf8(c.name) + AsciiBytes(Tail(c))
  }

  /** A line holds the UTF-8 bytes of `format!("{}'s {} is {}", name, ordinal, day_text)`. */
  lemma LineIsFormatted(c: Candidate)
    ensures Line(c) == Utf8(c.name + Tail(c))
  {
    TailAscii(c);
    AsciiBytesAreUtf8(Tail(c));
    Utf8Append(c.name, Tail(c));
  }

  function Lines(cs: seq<Candidate>): (ls: seq<seq<byte>>)
    ensures |ls| == |cs|
    ensures forall i :: 0 <= i < |cs| ==> ls[i] == Line(cs[i])
  {
    seq(|cs|, i requires 0 <= i < |cs| => Line(cs[i]))
  }

  /** `text`, then the marker for `others` left-out candidates and the link, fits in one SMS. */
  predicate FitsWithMarker(text: seq<byte>, others: nat)
  {
    |text + MoreText(others)| <= MaxMessageBytes
  }

  /** The overflow marker with the link after it: "\n+ K more...\nhttps://hbd.bot". */
  function MoreText(k: nat): seq<byte>
  {
    MoreMarker(k) + Suffix
  }

  function MoreMarker(k: nat): seq<byte>
  {
    AsciiBytes("\n+ " + NatToString(k) + " more...")
  }

  /** The marker and link hold the bytes of `format!("\n+ {} more...{}", k, suffix)`. */
  lemma MoreTextIsFormatted(k: nat)
    ensures MoreText(k) == Utf8("\n+ " + NatToString(k) + " more..." + "\nhttps://hbd.bot")
  {
    var marker := "\n+ " + NatToString(k) + " more...";
    assert IsAscii(NatToString(k));
    AsciiAppend("\n+ ", NatToString(k));
    AsciiAppend("\n+ " + NatToString(k), " more...");
    AsciiBytesAreUtf8(marker);
    SuffixBytes();
    Utf8Append(marker, "\nhttps://hbd.bot");
  }

  /** Lines joined with newlines. */
  function Join(ls: seq<seq<byte>>): seq<byte>
  {
    if |ls| == 0 then []
    else if |ls| == 1 then ls[0]
    else Join(ls[..|ls| - 1]) + Newline + ls[|ls| - 1]
  }

  predicate NonEmptyLines(ls: seq<seq<byte>>)
  {
    forall j :: 0 <= j < |ls| ==> ls[j] != []
  }

  /** Appending one more line to a joined prefix, as the loop does: no
      newline before the first line, one before every later line. */
  lemma JoinExtend(ls: seq<seq<byte>>, i: nat)
    requires i < |ls| && NonEmptyLines(ls)
    ensures (Join(ls[..i]) == []) <==> (i == 0)
    ensures Join(ls[..i + 1]) == if i == 0 then ls[i] else Join(ls[..i]) + Newline + ls[i]
  {
    assert ls[..i + 1][..i] == ls[..i];
    if i == 1 {
      assert ls[..1] == [ls[0]];
    }
  }

  predicate EndsWith(s: seq<byte>, tail: seq<byte>)
  {
    |tail| <= |s| && s[|s| - |tail|..] == tail
  }

  lemma EndsWithSuffix(x: seq<byte>)
    ensures EndsWith(x + Suffix, Suffix)
  {
    var s := x + Suffix;
    assert s[|s| - |Suffix|..] == Suffix;
  }

  /** `current_with_newline`: the committed text with line `i` added,
      separated by a newline unless nothing is committed yet. It is the
      first `i + 1` lines joined. */
  function Extend(lines: seq<seq<byte>>, i: nat, message: seq<byte>): (current: seq<byte>)
    requires i < |lines| && NonEmptyLines(lines)
    requires message == Join(lines[..i])
    ensures current == Join(lines[..i + 1])
  {
    JoinExtend(lines, i);
    if message == [] then lines[i] else message + Newline + lines[i]
  }

  /** The loop's early exit once `n` lines are committed: at least two
      candidates remain and the "+ K more..." marker for them fits. */
  predicate MarkerStop(lines: seq<seq<byte>>, n: nat)
    requires n <= |lines|
  {
    |lines| - n > 1 && FitsWithMarker(Join(lines[..n]), |lines| - n)
  }

  /** Where a run of the loop started at iteration `i` may end with `p.included`
      lines committed: after all lines, at the first line that would not
      fit with the link, or right after a commit of this run once the
      marker for the remaining candidates fits; and it did not take that
      marker exit at any earlier commit of the run. */
  predicate Stopped(lines: seq<seq<byte>>, i: nat, p: Packing)
    requires p.included <= |lines|
  {
    && (|| p.included == |lines|
        || |Join(lines[..p.included + 1]) + Suffix| > MaxMessageBytes
        || (i < p.included && MarkerStop(lines, p.included)))
    && forall n :: i < n < p.included ==> !MarkerStop(lines, n)
  }

  /** A run from iteration `i + 1` that ends properly is a run from `i`
      that ends properly, when the loop did not take the marker exit at
      the commit in between. */
  lemma StoppedLater(lines: seq<seq<byte>>, i: nat, p: Packing)
    requires i + 1 <= p.included <= |lines|
    requires Stopped(lines, i + 1, p) && !MarkerStop(lines, i + 1)
    ensures Stopped(lines, i, p)
  {
  }

  /** What the packing loop leaves behind: the committed text and how many candidates it holds. */
  datatype Packing = Packing(body: seq<byte>, included: nat)

  /** The loop of `format_birthday_message`, from iteration `i` on with
      `message` committed so far. Every committed text still fits with the
      link after it. The loop ends after all lines, at the first line that
      would not fit, or at the first commit after which the marker for the
      remaining candidates fits, and at no point before. */
  function Pack(lines: seq<seq<byte>>, i: nat, message: seq<byte>): (p: Packing)
    requires i <= |lines| && NonEmptyLines(lines)
    requires message == Join(lines[..i])
    requires |message + Suffix| <= MaxMessageBytes
    ensures i <= p.included <= |lines|
    ensures p.body == Join(lines[..p.included])
    ensures |p.body + Suffix| <= MaxMessageBytes
    ensures Stopped(lines, i, p)
    decreases |lines| - i
  {
    if i == |lines| then Packing(message, i)
    else
      var current := Extend(lines, i, message);
      var remainingAfter := |lines| - i - 1;
      if |current + Suffix| <= MaxMessageBytes then
        if remainingAfter == 0 then Packing(current, i + 1)
        else if remainingAfter == 1 && |current + Newline + lines[i + 1] + Suffix| <= MaxMessageBytes then
          var p := Pack(lines, i + 1, current);
          StoppedLater(lines, i, p);
          p
        else if remainingAfter > 1 && |current + MoreText(remainingAfter)| <= MaxMessageBytes then
          Packing(current, i + 1)
        else
          var p := Pack(lines, i + 1, current);
          StoppedLater(lines, i, p);
          p
      else
        Packing(message, i)
  }

  lemma EmptyFits()
    ensures |[] + Suffix| <= MaxMessageBytes
  {
    SuffixBytes();
  }

  /** The packing loop run over all candidates from the start, with nothing committed. */
  function Packed(cs: seq<Candidate>): (p: Packing)
    ensures p.included <= |cs|
    ensures p.body == Join(Lines(cs)[..p.included])
    ensures |p.body + Suffix| <= MaxMessageBytes
    ensures Stopped(Lines(cs), 0, p)
  {
    Start(Lines(cs))
  }

  /** The packing loop from its first iteration, with nothing committed. */
  function Start(lines: seq<seq<byte>>): (p: Packing)
    requires NonEmptyLines(lines)
    ensures p.included <= |lines|
    ensures p.body == Join(lines[..p.included])
    ensures |p.body + Suffix| <= MaxMessageBytes
    ensures Stopped(lines, 0, p)
  {
    EmptyFits();
    Pack(lines, 0, [])
  }

  /** Committing more lines never makes the text shorter. */
  lemma {:induction false} JoinPrefixGrows(ls: seq<seq<byte>>, m: nat, n: nat)
    requires m <= n <= |ls| && NonEmptyLines(ls)
    ensures |Join(ls[..m])| <= |Join(ls[..n])|
    decreases n - m
  {
    if m < n {
      JoinPrefixGrows(ls, m, n - 1);
      JoinExtend(ls, n - 1);
    }
  }

  /** The contract of the packing loop determines its result: a packing
      that commits a prefix of the lines fitting with the link, and ends
      where the loop may end, is the one the loop produces. */
  lemma StartDetermined(lines: seq<seq<byte>>, q: Packing)
    requires NonEmptyLines(lines)
    requires q.included <= |lines| && q.body == Join(lines[..q.included])
    requires |q.body + Suffix| <= MaxMessageBytes && Stopped(lines, 0, q)
    ensures Start(lines) == q
  {
    var p := Start(lines);
    if q.included < p.included {
      JoinPrefixGrows(lines, q.included + 1, p.included);
      assert false;
    } else if p.included < q.included {
      JoinPrefixGrows(lines, p.included + 1, q.included);
      assert false;
    }
  }

  /** How many candidates the packing loop commits. */
  function IncludedCount(cs: seq<Candidate>): (k: nat)
    ensures k <= |cs|
  {
    Packed(cs).included
  }

  /** The tail of `format_birthday_message`: the overflow marker when at
      least two candidates are left out and it fits, the bare link otherwise. */
  function Finish(body: seq<byte>, left: int): (msg: seq<byte>)
    requires |body + Suffix| <= MaxMessageBytes
    ensures |msg| <= MaxMessageBytes
    ensures EndsWith(msg, Suffix)
  {
    if left > 1 && |body + MoreText(left)| <= MaxMessageBytes then
      assert body + MoreText(left) == (body + MoreMarker(left)) + Suffix;
      EndsWithSuffix(body + MoreMarker(left));
      body + MoreText(left)
    else
      EndsWithSuffix(body);
      body + Suffix
  }

  /** `format_birthday_message`. The result never exceeds 160 bytes and
      always ends with the link. */
  function FormatBirthdayMessage(cs: seq<Candidate>): (msg: seq<byte>)
    ensures |msg| <= MaxMessageBytes
    ensures EndsWith(msg, Suffix)
  {
    var p := Packed(cs);
    Finish(p.body, |cs| - p.included)
  }

  /** The message is the lines of the first `IncludedCount` candidates, in
      input order, then either the overflow marker counting every
      candidate left out (only when at least two are left out and it fits)
      or just the link. */
  lemma MessageShape(cs: seq<Candidate>)
    ensures var k := IncludedCount(cs);
            var body := Join(Lines(cs)[..k]);
            var left := |cs| - k;
            FormatBirthdayMessage(cs) ==
              if left > 1 && |body + MoreText(left)| <= MaxMessageBytes
              then body + MoreText(left)
              else body + Suffix
  {
    FormatIsFinish(cs);
    FinishShape(Packed(cs).body, |cs| - Packed(cs).included);
  }

  lemma FinishShape(body: seq<byte>, left: int)
    requires |body + Suffix| <= MaxMessageBytes
    ensures Finish(body, left) ==
              if left > 1 && |body + MoreText(left)| <= MaxMessageBytes
              then body + MoreText(left)
              else body + Suffix
  {
  }

  lemma FormatFromPacking(cs: seq<Candidate>, p: Packing)
    requires Start(Lines(cs)) == p
    ensures IncludedCount(cs) == p.included
    ensures FormatBirthdayMessage(cs) == Finish(p.body, |cs| - p.included)
  {
    FormatIsFinish(cs);
  }

  lemma FormatIsFinish(cs: seq<Candidate>)
    ensures FormatBirthdayMessage(cs) == Finish(Packed(cs).body, |cs| - Packed(cs).included)
  {
  }

  /** With three or more candidates, whenever the first line and the marker
      for all the others fit, the loop stops after the first candidate, even
      if more lines would have fit. */
  lemma FirstLineThenMarker(cs: seq<Candidate>)
    requires |cs| >= 3
    requires FitsWithMarker(Line(cs[0]), |cs| - 1)
    ensures FormatBirthdayMessage(cs) == Line(cs[0]) + MoreText(|cs| - 1)
  {
    var lines := Lines(cs);
    JoinExtend(lines, 0);
    assert MarkerStop(lines, 1);
    assert Packed(cs).included == 1;
    FormatIsFinish(cs);
    FinishShape(lines[0], |cs| - 1);
  }

  /** For fewer than 10000 others the "+ K more..." marker is shorter than
      a newline followed by any candidate's line. */
  lemma MarkerShorterThanLine(k: nat, c: Candidate)
    requires k < 10000
    ensures |MoreMarker(k)| < |Newline + Line(c)|
  {
    NatToStringShort(k);
  }

  /** With three or more candidates (up to 10000) the loop never commits a
      second line: whenever the first two lines fit with the link, so do
      the first line and the marker, and the loop stops there. */
  lemma AtMostOneLine(cs: seq<Candidate>)
    requires 3 <= |cs| <= 10000
    ensures IncludedCount(cs) <= 1
  {
    var lines := Lines(cs);
    MarkerShorterThanLine(|cs| - 1, cs[1]);
    NoSecondLine(lines, Packed(cs));
  }

  /** The packing loop never commits a second line when the marker for all
      but the first line is shorter than a newline and the second line. */
  lemma NoSecondLine(lines: seq<seq<byte>>, p: Packing)
    requires NonEmptyLines(lines) && |lines| >= 3 && p.included <= |lines|
    requires p.body == Join(lines[..p.included]) && |p.body + Suffix| <= MaxMessageBytes
    requires Stopped(lines, 0, p)
    requires |MoreMarker(|lines| - 1)| < |Newline + lines[1]|
    ensures p.included <= 1
  {
    if p.included >= 2 {
      assert !MarkerStop(lines, 1);
      JoinExtend(lines, 0);
      JoinExtend(lines, 1);
      JoinPrefixGrows(lines, 2, p.included);
      assert false;
    }
  }

  /** With three or more candidates (up to 10000), when the first line fits
      with the link but not with the marker, the message is that line and
      the link: every other candidate is dropped without a marker. */
  lemma FirstLineWithoutMarker(cs: seq<Candidate>)
    requires 3 <= |cs| <= 10000
    requires |Line(cs[0]) + Suffix| <= MaxMessageBytes
    requires !FitsWithMarker(Line(cs[0]), |cs| - 1)
    ensures IncludedCount(cs) == 1
    ensures FormatBirthdayMessage(cs) == Line(cs[0]) + Suffix
  {
    var lines := Lines(cs);
    AtMostOneLine(cs);
    JoinExtend(lines, 0);
    FormatIsFinish(cs);
    FinishShape(lines[0], |cs| - 1);
  }

  /** One or two candidates whose lines all fit are all rendered, with no marker. */
  lemma EverythingFits(cs: seq<Candidate>)
    requires 1 <= |cs| <= 2
    requires |Join(Lines(cs)) + Suffix| <= MaxMessageBytes
    ensures FormatBirthdayMessage(cs) == Join(Lines(cs)) + Suffix
  {
    var lines := Lines(cs);
    assert lines[..|lines|] == lines;
    if |cs| == 1 {
      LoneLine(lines);
      FormatFromPacking(cs, Packing(lines[0], 1));
      FinishShape(lines[0], 0);
    } else {
      BothLines(lines);
      FormatFromPacking(cs, Packing(Join(lines), 2));
      FinishShape(Join(lines), 0);
    }
  }

  lemma LoneLine(lines: seq<seq<byte>>)
    requires |lines| == 1 && NonEmptyLines(lines)
    requires |Join(lines) + Suffix| <= MaxMessageBytes
    ensures Join(lines) == lines[0]
    ensures Start(lines) == Packing(lines[0], 1)
  {
    EmptyFits();
    JoinExtend(lines, 0);
    assert Pack(lines, 0, []) == Packing(lines[0], 1);
  }

  lemma BothLines(lines: seq<seq<byte>>)
    requires |lines| == 2 && NonEmptyLines(lines)
    requires |Join(lines) + Suffix| <= MaxMessageBytes
    ensures Start(lines) == Packing(Join(lines), 2)
  {
    EmptyFits();
    JoinExtend(lines, 0);
    JoinExtend(lines, 1);
    assert lines[..2] == lines;
    var both := lines[0] + Newline + lines[1];
    assert Join(lines) == both;
    assert Pack(lines, 1, lines[0]) == Packing(both, 2);
    assert Pack(lines, 0, []) == Packing(both, 2);
  }

  /** A single candidate left over is dropped without any marker. */
  lemma SingleLeftoverUnmarked(cs: seq<Candidate>)
    requires IncludedCount(cs) + 1 == |cs|
    ensures FormatBirthdayMessage(cs) == Join(Lines(cs)[..|cs| - 1]) + Suffix
  {
    MessageShape(cs);
  }

  /** The case that shows it: two candidates, the first fits, both do not;
      the message names only the first and does not mention the second. */
  lemma SecondOfTwoDropped(cs: seq<Candidate>)
    requires |cs| == 2
    requires |Line(cs[0]) + Suffix| <= MaxMessageBytes
    requires |Line(cs[0]) + Newline + Line(cs[1]) + Suffix| > MaxMessageBytes
    ensures IncludedCount(cs) == 1
    ensures FormatBirthdayMessage(cs) == Line(cs[0]) + Suffix
  {
    var lines := Lines(cs);
    OnlyFirstOfTwo(lines);
    FormatFromPacking(cs, Packing(lines[0], 1));
    FinishShape(lines[0], 1);
  }

  lemma OnlyFirstOfTwo(lines: seq<seq<byte>>)
    requires |lines| == 2 && NonEmptyLines(lines)
    requires |lines[0] + Suffix| <= MaxMessageBytes
    requires |lines[0] + Newline + lines[1] + Suffix| > MaxMessageBytes
    ensures Start(lines) == Packing(lines[0], 1)
  {
    EmptyFits();
    JoinExtend(lines, 0);
    JoinExtend(lines, 1);
    assert Pack(lines, 1, lines[0]) == Packing(lines[0], 1);
    assert Pack(lines, 0, []) == Packing(lines[0], 1);
  }

  /** When not even the first line fits, no line is rendered: the message is
      the marker for every candidate (starting with a newline) or the bare link. */
  lemma FirstLineTooLong(cs: seq<Candidate>)
    requires |cs| >= 1
    requires |Line(cs[0]) + Suffix| > MaxMessageBytes
    ensures IncludedCount(cs) == 0
    ensures FormatBirthdayMessage(cs) ==
              if |cs| > 1 && |MoreText(|cs|)| <= MaxMessageBytes then MoreText(|cs|) else Suffix
  {
    var lines := Lines(cs);
    NothingCommitted(lines);
    FormatFromPacking(cs, Packing([], 0));
    FinishShape([], |cs|);
    assert [] + MoreText(|cs|) == MoreText(|cs|);
    assert [] + Suffix == Suffix;
  }

  lemma NothingCommitted(lines: seq<seq<byte>>)
    requires NonEmptyLines(lines)
    requires |lines| == 0 || |lines[0] + Suffix| > MaxMessageBytes
    ensures Start(lines) == Packing([], 0)
  {
    EmptyFits();
    if |lines| > 0 {
      JoinExtend(lines, 0);
    }
    assert Pack(lines, 0, []) == Packing([], 0);
  }

  /** With no candidates the message is the bare link. */
  lemma NoCandidates()
    ensures FormatBirthdayMessage([]) == Suffix
  {
    NothingCommitted(Lines([]));
    FormatFromPacking([], Packing([], 0));
    FinishShape([], 0);
    assert [] + Suffix == Suffix;
  }
}

=== FILE: digest.dfy ===
/**
 * The digest orchestrator, `get_birthday_messages`, as a pure function of
 * the current instant and the stored users with their reminders: one
 * outbound SMS per user whose send gate is open and who has something due.
 */
module Digest {
  import opened Wrappers
  import opened FilterMap
  import opened Calendar
  import opened Text
  import opened Records
  import opened Recurrence
  import opened SendGate
  import opened Selector
  import opened Composer

  /** A stored user with the outcome of fetching that user's reminders;
      `None` when the fetch failed, which skips the user. */
  datatype Account = Account(user: User, reminders: Option<seq<Reminder>>)

  /** `SmsMessage`: who to text, and what. */
  datatype SmsMessage = SmsMessage(userId: int, phoneNumber: string, message: seq<byte>)

  /** The loop body for one user: skip unless it is the user's send hour,
      the user was not notified recently, the reminders could be read and
      something is due; otherwise compose the digest. */
  function DigestFor(a: Account, now: Instant, zones: ZoneLookup, parse: Rfc3339Parser): (m: Option<SmsMessage>)
    ensures m.Some? <==>
              && IsSendTime(a.user, now, zones)
              && !WasNotifiedRecently(a.user, now, parse)
              && a.reminders.Some?
              && GetRemindersToSend(a.user, a.reminders.value, now, zones) != []
    ensures m.Some? ==>
              && m.value.userId == a.user.id
              && m.value.phoneNumber == a.user.phoneNumber
              && m.value.message == FormatBirthdayMessage(GetRemindersToSend(a.user, a.reminders.value, now, zones))
    ensures m.Some? ==> |m.value.message| <= MaxMessageBytes && EndsWith(m.value.message, Suffix)
  {
    if !IsSendTime(a.user, now, zones) then None
    else if WasNotifiedRecently(a.user, now, parse) then None
    else
      match a.reminders
      case None => None
      case Some(reminders) =>
        var due := GetRemindersToSend(a.user, reminders, now, zones);
        if due == [] then None
        else Some(SmsMessage(a.user.id, a.user.phoneNumber, FormatBirthdayMessage(due)))
  }

  /** The per-user outcomes of one sweep, in user order. */
  function Outcomes(accounts: seq<Account>, now: Instant, zones: ZoneLookup, parse: Rfc3339Parser): (o: seq<Option<SmsMessage>>)
    ensures |o| == |accounts|
    ensures forall i :: 0 <= i < |accounts| ==> o[i] == DigestFor(accounts[i], now, zones, parse)
  {
    seq(|accounts|, i requires 0 <= i < |accounts| => DigestFor(accounts[i], now, zones, parse))
  }

  /** `get_birthday_messages`: the digests of all users, in user order. */
  function GetBirthdayMessages(accounts: seq<Account>, now: Instant, zones: ZoneLookup, parse: Rfc3339Parser): (msgs: seq<SmsMessage>)
    ensures |msgs| <= |accounts|
    ensures forall m :: m in msgs ==> |m.message| <= MaxMessageBytes && EndsWith(m.message, Suffix)
  {
    var o := Outcomes(accounts, now, zones, parse);
    var msgs := Collect(o);
    assert forall m :: m in msgs ==> |m.message| <= MaxMessageBytes && EndsWith(m.message, Suffix) by {
      forall m | m in msgs
        ensures |m.message| <= MaxMessageBytes && EndsWith(m.message, Suffix)
      {
        var i :| 0 <= i < |o| && o[i] == Some(m);
      }
    }
    msgs
  }

  /** Positions, in `accounts`, of the users that get a message. */
  function Senders(accounts: seq<Account>, now: Instant, zones: ZoneLookup, parse: Rfc3339Parser): seq<nat>
  {
    Present(Outcomes(accounts, now, zones, parse))
  }

  /** Message `j` is the digest of the user at position `Senders[j]`; the
      positions strictly increase, so no user is texted twice and messages
      follow user order. */
  lemma MessagesFollowUsers(accounts: seq<Account>, now: Instant, zones: ZoneLookup, parse: Rfc3339Parser)
    ensures var msgs := GetBirthdayMessages(accounts, now, zones, parse);
            var senders := Senders(accounts, now, zones, parse);
            && |senders| == |msgs|
            && (forall j :: 0 <= j < |senders| ==>
                  senders[j] < |accounts| && DigestFor(accounts[senders[j]], now, zones, parse) == Some(msgs[j]))
            && (forall j, k :: 0 <= j < k < |senders| ==> senders[j] < senders[k])
  {
    PresentMatchesCollect(Outcomes(accounts, now, zones, parse));
  }

  /** A user is among the senders exactly when its digest is produced. */
  lemma SendersExactly(accounts: seq<Account>, now: Instant, zones: ZoneLookup, parse: Rfc3339Parser, i: nat)
    requires i < |accounts|
    ensures DigestFor(accounts[i], now, zones, parse).Some? <==> i in Senders(accounts, now, zones, parse)
  {
    PresentExactly(Outcomes(accounts, now, zones, parse), i);
  }

  /** A user none of whose reminders is due gets no message, whatever the gate says. */
  lemma NothingDueNoMessage(a: Account, now: Instant, zones: ZoneLookup, parse: Rfc3339Parser)
    requires a.reminders.Some? && zones(now, a.user.ianaTz).Some?
    requires forall i :: 0 <= i < |a.reminders.value| ==>
               CandidateOf(a.reminders.value[i], zones(now, a.user.ianaTz).value.date, a.user.daysNotice).None?
    ensures DigestFor(a, now, zones, parse).None?
  {
    var due := GetRemindersToSend(a.user, a.reminders.value, now, zones);
    if due != [] {
      SelectedExactly(a.user, a.reminders.value, now, zones, due[0]);
    }
  }

  /** A user at the send hour, never notified before, with one reminder whose
      birthday is today receives exactly one message: that line, ending in
      "is today", followed by the link. */
  lemma BirthdayTodayScenario(u: User, r: Reminder, b: Date, today: Date, now: Instant, zones: ZoneLookup, parse: Rfc3339Parser)
    requires zones(now, u.ianaTz).Some?
    requires zones(now, u.ianaTz).value.date == today && zones(now, u.ianaTz).value.hour == u.sendHour
    requires u.lastDigestAt.None?
    requires 1 <= u.daysNotice <= 14
    requires r.birthdate == Some(b) && b.month == today.month && b.day == today.day
    requires |Line(Candidate(r.name, 0, today.year - b.year)) + Suffix| <= MaxMessageBytes
    ensures GetBirthdayMessages([Account(u, Some([r]))], now, zones, parse)
            == [SmsMessage(u.id, u.phoneNumber, Line(Candidate(r.name, 0, today.year - b.year)) + Suffix)]
  {
    var c := Candidate(r.name, 0, today.year - b.year);
    assert CandidateOf(r, today, u.daysNotice) == Some(c) by {
      assert WithYear(b, today.year) == Some(today);
      assert NextOccurrence(b, today) == Ok(today);
    }
    assert GetRemindersToSend(u, [r], now, zones) == [c] by {
      assert Kept([r], today, u.daysNotice) == [c];
      assert SortByDays([c]) == [c] by {
        assert [c][..0] == [];
      }
    }
    assert FormatBirthdayMessage([c]) == Line(c) + Suffix by {
      assert Lines([c]) == [Line(c)];
      EverythingFits([c]);
    }
    var a := Account(u, Some([r]));
    assert DigestFor(a, now, zones, parse) == Some(SmsMessage(u.id, u.phoneNumber, Line(c) + Suffix));
    assert [a][1..] == [];
  }
}

=== FILE: display.dfy ===
/**
 * The web dashboard's view of a user's reminders
 * (`convert_reminders_to_display`): for each reminder whose next birthday
 * can be computed against today's UTC date, its name, its birth date
 * rendered as chrono's `%Y-%m-%d`, the days until the birthday and the age
 * being turned. Reminders whose calculation fails are left off the list.
 */
module Display {
  import opened Wrappers
  import opened FilterMap
  import opened Calendar
  import opened Text
  import opened Records
  import opened Recurrence
  import opened Selector

  /** One row of the dashboard (`ReminderDisplay`). */
  datatype ReminderDisplay = ReminderDisplay(
    id: int,
    name: string,
    birthdate: string,
    daysUntilBirthday: int,
    ageTurning: int)

  /** chrono's `%Y`: four zero-padded digits for years 0 through 9999; any
      other year carries an explicit sign followed by at least four digits. */
  function YearText(y: int): (s: string)
    ensures 0 <= y <= 9999 ==> |s| == 4 && AllDigits(s) && DigitsValue(s) == y
    ensures !(0 <= y <= 9999) ==> |s| >= 5 && s[0] == (if y < 0 then '-' else '+') && AllDigits(s[1..])
    ensures !(0 <= y <= 9999) ==> DigitsValue(s[1..]) == if y < 0 then -y else y
  {
    if 0 <= y <= 9999 then
      NatToStringShort(y);
      PadNatRoundTrip(y, 4);
      PadNat(y, 4)
    else
      var digits := PadNat(if y < 0 then -y else y, 4);
      PadNatRoundTrip(if y < 0 then -y else y, 4);
      var s := (if y < 0 then "-" else "+") + digits;
      assert s[1..] == digits;
      s
  }

  /** A month or day number as `%m` / `%d` print it: two digits. */
  function TwoDigits(n: nat): (s: string)
    requires n <= 31
    ensures |s| == 2 && AllDigits(s) && DigitsValue(s) == n
  {
    NatToStringShort(n);
    PadNatRoundTrip(n, 2);
    PadNat(n, 2)
  }

  /** `format("%Y-%m-%d")`. */
  function FormatDate(d: Date): (s: string)
    ensures |s| >= 10 && s[|s| - 6] == '-' && s[|s| - 3] == '-'
    ensures 0 <= d.year <= 9999 ==> |s| == 10
    ensures s[..|s| - 6] == YearText(d.year)
    ensures s[|s| - 5..|s| - 3] == TwoDigits(d.month) && s[|s| - 2..] == TwoDigits(d.day)
  {
    var y, m, dd := YearText(d.year), TwoDigits(d.month), TwoDigits(d.day);
    DateSlices(y, m, dd);
    y + "-" + m + "-" + dd
  }

  /** Reads back a year written by `YearText`: optional sign, then digits. */
  function ParseYear(t: string): Option<int>
  {
    if |t| >= 2 && (t[0] == '-' || t[0] == '+') && AllDigits(t[1..]) then
      var magnitude: int := DigitsValue(t[1..]);
      Some(if t[0] == '-' then -magnitude else magnitude)
    else if |t| >= 1 && AllDigits(t) then Some(DigitsValue(t))
    else None
  }

  /** Reads back `YYYY-MM-DD`, with the year as `ParseYear` reads it. */
  function ParseDate(s: string): Option<CivilDate>
  {
    if |s| >= 7 && s[|s| - 6] == '-' && s[|s| - 3] == '-'
       && AllDigits(s[|s| - 5..|s| - 3]) && AllDigits(s[|s| - 2..])
    then
      match ParseYear(s[..|s| - 6])
      case None => None
      case Some(y) => Some(CivilDate(y, DigitsValue(s[|s| - 5..|s| - 3]), DigitsValue(s[|s| - 2..])))
    else None
  }

  lemma YearTextRoundTrip(y: int)
    ensures ParseYear(YearText(y)) == Some(y)
  {
    var t := YearText(y);
    if 0 <= y <= 9999 {
      assert IsDigit(t[0]);
    }
  }

  /** How `ParseDate` splits a string built from a year text and two
      two-digit fields. */
  lemma ParseDateParts(y: string, m: string, dd: string)
    requires ParseYear(y).Some?
    requires |m| == 2 && AllDigits(m) && |dd| == 2 && AllDigits(dd)
    ensures ParseDate(y + "-" + m + "-" + dd) == Some(CivilDate(ParseYear(y).value, DigitsValue(m), DigitsValue(dd)))
  {
    DateSlices(y, m, dd);
  }

  /** Where the three fields of `y-m-dd` sit, counting from the end. */
  lemma DateSlices(y: string, m: string, dd: string)
    requires |m| == 2 && |dd| == 2
    ensures var s := y + "-" + m + "-" + dd;
            && |s| == |y| + 6 && s[|s| - 6] == '-' && s[|s| - 3] == '-'
            && s[..|s| - 6] == y && s[|s| - 5..|s| - 3] == m && s[|s| - 2..] == dd
  {
    var s := y + "-" + m + "-" + dd;
    assert s[..|s| - 6] == y;
    assert s[|s| - 5..|s| - 3] == m;
    assert s[|s| - 2..] == dd;
  }

  /** The rendered date reads back as the date: `%Y-%m-%d` loses nothing. */
  lemma FormatDateRoundTrip(d: Date)
    ensures ParseDate(FormatDate(d)) == Some(d)
  {
    YearTextRoundTrip(d.year);
    PadNatRoundTrip(d.month, 2);
    PadNatRoundTrip(d.day, 2);
    ParseDateParts(YearText(d.year), TwoDigits(d.month), TwoDigits(d.day));
  }

  /** Different birth dates are never shown as the same text. */
  lemma FormatDateInjective(a: Date, b: Date)
    requires FormatDate(a) == FormatDate(b)
    ensures a == b
  {
    FormatDateRoundTrip(a);
    FormatDateRoundTrip(b);
  }

  /** The displayed birth date: the formatted UTC date, or "Unknown" when
      the timestamp does not decode. */
  function BirthdateText(b: Option<Date>): (s: string)
    ensures b.Some? ==> s == FormatDate(b.value) && ParseDate(s) == Some(b.value)
    ensures b.None? ==> ParseDate(s).None?
  {
    match b
    case None => "Unknown"
    case Some(d) =>
      FormatDateRoundTrip(d);
      FormatDate(d)
  }

  /** The `filter_map` closure: the row for one reminder, computed against
      the UTC date `utcToday`, or nothing when the calculation fails. */
  function DisplayOf(r: Reminder, utcToday: Date): (e: Option<ReminderDisplay>)
    ensures e.Some? <==> CalculateBirthdayInfo(r.birthdate, utcToday).Ok?
    ensures e.Some? ==>
              var info := CalculateBirthdayInfo(r.birthdate, utcToday).value;
              && e.value.id == r.id && e.value.name == r.name
              && r.birthdate.Some? && e.value.birthdate == FormatDate(r.birthdate.value)
              && ParseDate(e.value.birthdate) == Some(r.birthdate.value)
              && e.value.daysUntilBirthday == info.daysUntil
              && e.value.ageTurning == info.ageTurning
  {
    match CalculateBirthdayInfo(r.birthdate, utcToday)
    case Err(_) => None
    case Ok(info) => Some(ReminderDisplay(r.id, r.name, BirthdateText(r.birthdate), info.daysUntil, info.ageTurning))
  }

  /** The dashboard's `calculate_birthday_info` counts from today's UTC date.
      It fails exactly for an undecodable timestamp, or for a February 29
      birthday whose anniversary this year is missing or past while next
      year is a common year. On success the count is not negative and the
      age is this year's or next year's. */
  lemma UtcBirthdayInfo(birthdate: Option<Date>, utcToday: Date)
    ensures var r := CalculateBirthdayInfo(birthdate, utcToday);
            r.Err? <==>
              || birthdate.None?
              || (&& birthdate.value.month == 2 && birthdate.value.day == 29
                  && !IsLeapYear(utcToday.year + 1)
                  && (|| WithYear(birthdate.value, utcToday.year).None?
                      || !OnOrBefore(utcToday, WithYear(birthdate.value, utcToday.year).value)))
    ensures var r := CalculateBirthdayInfo(birthdate, utcToday);
            r.Ok? ==>
              && 0 <= r.value.daysUntil
              && (|| r.value.ageTurning == utcToday.year - birthdate.value.year
                  || r.value.ageTurning == utcToday.year + 1 - birthdate.value.year)
  {
    if birthdate.Some? {
      WithYearFails(birthdate.value, utcToday.year + 1);
    }
  }

  /** The `filter_map` closure over a fixed UTC date. */
  function Row(utcToday: Date): Reminder -> Option<ReminderDisplay>
  {
    r => DisplayOf(r, utcToday)
  }

  /** The closure's outcome for each reminder, position by position. */
  function Rows(rs: seq<Reminder>, utcToday: Date): (o: seq<Option<ReminderDisplay>>)
    ensures |o| == |rs|
    ensures forall i :: 0 <= i < |rs| ==> o[i] == DisplayOf(rs[i], utcToday)
  {
    Map(Row(utcToday), rs)
  }

  /** `convert_reminders_to_display`: the rows of the reminders whose
      birthday could be computed, in reminder order. */
  function ConvertRemindersToDisplay(rs: seq<Reminder>, utcToday: Date): (ds: seq<ReminderDisplay>)
    ensures |ds| <= |rs|
    ensures forall e :: e in ds ==> ParseDate(e.birthdate).Some? && 0 <= e.daysUntilBirthday < 732
  {
    var o := Rows(rs, utcToday);
    var ds := Collect(o);
    assert forall e :: e in ds ==> ParseDate(e.birthdate).Some? && 0 <= e.daysUntilBirthday < 732 by {
      forall e | e in ds
        ensures ParseDate(e.birthdate).Some? && 0 <= e.daysUntilBirthday < 732
      {
        var i :| 0 <= i < |o| && o[i] == Some(e);
      }
    }
    ds
  }

  /** Conversion works reminder by reminder, so it keeps the stored order. */
  lemma ConvertAppend(a: seq<Reminder>, b: seq<Reminder>, utcToday: Date)
    ensures ConvertRemindersToDisplay(a + b, utcToday)
            == ConvertRemindersToDisplay(a, utcToday) + ConvertRemindersToDisplay(b, utcToday)
  {
    MapAppend(Row(utcToday), a, b);
    CollectAppend(Rows(a, utcToday), Rows(b, utcToday));
  }

  /** A row is shown exactly when some reminder produces it. */
  lemma ConvertMembers(rs: seq<Reminder>, utcToday: Date, e: ReminderDisplay)
    ensures e in ConvertRemindersToDisplay(rs, utcToday) <==>
              exists i :: 0 <= i < |rs| && DisplayOf(rs[i], utcToday) == Some(e)
  {
    CollectMembers(Rows(rs, utcToday), e);
  }

  /** When every reminder's birthday can be computed, every reminder is
      shown, one row each, in stored order. */
  lemma ConvertKeepsAll(rs: seq<Reminder>, utcToday: Date)
    requires forall i :: 0 <= i < |rs| ==> CalculateBirthdayInfo(rs[i].birthdate, utcToday).Ok?
    ensures var ds := ConvertRemindersToDisplay(rs, utcToday);
            |ds| == |rs| && forall i :: 0 <= i < |rs| ==> Some(ds[i]) == DisplayOf(rs[i], utcToday)
  {
    CollectAll(Rows(rs, utcToday));
  }

  /** The dashboard and the digest agree: when the UTC date is the user's
      local date, a reminder the digest would include is shown with the
      same day count and age. */
  lemma DisplayMatchesDigest(r: Reminder, today: Date, daysNotice: int, c: Candidate)
    requires CandidateOf(r, today, daysNotice) == Some(c)
    ensures DisplayOf(r, today).Some?
    ensures DisplayOf(r, today).value.name == c.name
    ensures DisplayOf(r, today).value.daysUntilBirthday == c.daysUntil
    ensures DisplayOf(r, today).value.ageTurning == c.ageTurning
  {
  }
}

=== FILE: filter_map.dfy ===
/**
 * Rust's `filter_map` and the `if let Some(x) = … { out.push(x) }` loops
 * the source uses in its place: keep the present values of a sequence of
 * optional results, in order. The lemmas here are stated once for any
 * element type so that each caller only has to show how its own sequence
 * of outcomes is built.
 */
module FilterMap {
  import opened Wrappers

  /** `f` applied to every element of `s`, position by position. */
  function Map<A, B>(f: A -> B, s: seq<A>): (r: seq<B>)
    ensures |r| == |s|
    ensures forall i :: 0 <= i < |s| ==> r[i] == f(s[i])
  {
    seq(|s|, i requires 0 <= i < |s| => f(s[i]))
  }

  /** Mapping works element by element. */
  lemma MapAppend<A, B>(f: A -> B, a: seq<A>, b: seq<A>)
    ensures Map(f, a + b) == Map(f, a) + Map(f, b)
  {
    var r := Map(f, a + b);
    forall i | 0 <= i < |r|
      ensures r[i] == (Map(f, a) + Map(f, b))[i]
    {
      if i < |a| {
        assert (a + b)[i] == a[i];
      } else {
        assert (a + b)[i] == b[i - |a|];
      }
    }
  }

  /** The present values of `o`, in order. */
  function Collect<T>(o: seq<Option<T>>): (r: seq<T>)
    ensures |r| <= |o|
    ensures forall x :: x in r ==> Some(x) in o
  {
    if |o| == 0 then []
    else Collect(o[..|o| - 1]) + (if o[|o| - 1].Some? then [o[|o| - 1].value] else [])
  }

  /** The positions of the present values of `o`, in order. */
  function Present<T>(o: seq<Option<T>>): (ps: seq<nat>)
    ensures forall j :: 0 <= j < |ps| ==> ps[j] < |o|
  {
    if |o| == 0 then []
    else Present(o[..|o| - 1]) + (if o[|o| - 1].Some? then [|o| - 1] else [])
  }

  /** Filtering works element by element: the values kept from two
      sequences placed one after the other are those of the first, then
      those of the second. */
  lemma {:induction false} CollectAppend<T>(a: seq<Option<T>>, b: seq<Option<T>>)
    ensures Collect(a + b) == Collect(a) + Collect(b)
    decreases |b|
  {
    if |b| == 0 {
      assert a + b == a;
    } else {
      assert (a + b)[..|a + b| - 1] == a + b[..|b| - 1];
      CollectAppend(a, b[..|b| - 1]);
    }
  }

  /** A value is kept exactly when some position holds it. */
  lemma {:induction false} CollectMembers<T>(o: seq<Option<T>>, x: T)
    ensures x in Collect(o) <==> exists i :: 0 <= i < |o| && o[i] == Some(x)
  {
    if |o| > 0 {
      var init := o[..|o| - 1];
      CollectMembers(init, x);
      if exists i :: 0 <= i < |o| && o[i] == Some(x) {
        var i :| 0 <= i < |o| && o[i] == Some(x);
        if i < |o| - 1 {
          assert init[i] == o[i];
        }
      }
      if x in Collect(init) {
        var i :| 0 <= i < |init| && init[i] == Some(x);
        assert o[i] == Some(x);
      }
    }
  }

  /** When every value is present, nothing is dropped and the order is kept. */
  lemma {:induction false} CollectAll<T>(o: seq<Option<T>>)
    requires forall i :: 0 <= i < |o| ==> o[i].Some?
    ensures |Collect(o)| == |o|
    ensures forall i :: 0 <= i < |o| ==> Collect(o)[i] == o[i].value
  {
    if |o| > 0 {
      var init := o[..|o| - 1];
      assert forall i :: 0 <= i < |init| ==> init[i].Some? by {
        forall i | 0 <= i < |init|
          ensures init[i].Some?
        {
          assert init[i] == o[i];
        }
      }
      CollectAll(init);
      var r := Collect(o);
      assert r == Collect(init) + [o[|o| - 1].value];
      forall i | 0 <= i < |init|
        ensures r[i] == o[i].value
      {
        assert init[i] == o[i];
      }
    }
  }

  /** `Present` lists, in strictly increasing order, positions of `o`
      holding the values `Collect` returns, one for one. */
  lemma {:induction false} PresentMatchesCollect<T>(o: seq<Option<T>>)
    ensures |Present(o)| == |Collect(o)|
    ensures forall j :: 0 <= j < |Present(o)| ==> o[Present(o)[j]] == Some(Collect(o)[j])
    ensures forall j, k :: 0 <= j < k < |Present(o)| ==> Present(o)[j] < Present(o)[k]
  {
    if |o| > 0 {
      var init := o[..|o| - 1];
      PresentMatchesCollect(init);
      var ps, r := Present(o), Collect(o);
      var ps', r' := Present(init), Collect(init);
      assert ps == ps' + (if o[|o| - 1].Some? then [|o| - 1] else []);
      assert r == r' + (if o[|o| - 1].Some? then [o[|o| - 1].value] else []);
      forall j | 0 <= j < |ps'|
        ensures o[ps[j]] == Some(r[j])
      {
        assert o[ps'[j]] == init[ps'[j]];
      }
    }
  }

  /** Exactly the positions of present values are listed. */
  lemma {:induction false} PresentExactly<T>(o: seq<Option<T>>, i: nat)
    requires i < |o|
    ensures o[i].Some? <==> i in Present(o)
  {
    var init := o[..|o| - 1];
    assert Present(o) == Present(init) + (if o[|o| - 1].Some? then [|o| - 1] else []);
    if i < |o| - 1 {
      PresentExactly(init, i);
      assert o[i] == init[i];
    }
  }
}

=== FILE: records.dfy ===
/**
 * The stored records the digest compiler reads (`DbUser`, `DbReminder`)
 * and the two collaborators it consults but does not implement: the
 * time-zone database and the RFC 3339 parser.
 */
module Records {
  import opened Wrappers
  import opened Calendar

  /** A UTC instant, in nanoseconds since the Unix epoch. */
  type Instant = int

  type Hour = h: int | 0 <= h < 24

  /** A wall-clock reading in some zone: the local date and the local hour. */
  datatype LocalTime = LocalTime(date: Date, hour: Hour)

  /** The time-zone database: the local reading of an instant in the named
      zone, or `None` when the name does not resolve. */
  type ZoneLookup = (Instant, string) -> Option<LocalTime>

  /** `DateTime::parse_from_rfc3339`, converted to UTC; `None` when the text does not parse. */
  type Rfc3339Parser = string -> Option<Instant>

  datatype User = User(
    id: int,
    phoneNumber: string,
    createdAt: string,
    lastDigestAt: Option<string>,
    daysNotice: int,
    sendHour: int,
    ianaTz: string)

  /** A tracked birthday. `birthdate` is the stored millisecond timestamp as
      chrono decodes it to a UTC date; `None` when it lies outside chrono's range. */
  datatype Reminder = Reminder(
    id: int,
    userId: int,
    name: string,
    birthdate: Option<Date>,
    createdAt: string,
    updatedAt: string)
}

=== FILE: recurrence.dfy ===
/**
 * The recurrence calculator, `calculate_birthday_info`: from a decoded
 * birth date and the calendar date that counts as "today", the number of
 * days until the next birthday and the age being turned then.
 *
 * Only the current year and the year after are tried. February 29 is never
 * moved to February 28: when this year's February 29 is missing or already
 * past and the year after is a common year, the calculation fails. That is
 * the case from March 1 of a leap year until the end of the year two years
 * before the next leap year.
 */
module Recurrence {
  import opened Wrappers
  import opened Calendar
  import RustInt

  /** Why a calculation failed: the birth timestamp did not decode
      ("Invalid timestamp"), or the birthday does not exist in the year
      after today's ("Failed to calculate next year's birthday"). */
  datatype CalcError = InvalidTimestamp | NextYearUnrepresentable

  datatype Result<+T> = Ok(value: T) | Err(error: CalcError)

  datatype BirthdayInfo = BirthdayInfo(daysUntil: int, ageTurning: int)

  /** The anniversary of `birth` that the calculation settles on. */
  function NextOccurrence(birth: Date, today: Date): (r: Result<Date>)
    ensures r.Ok? ==> r.value.month == birth.month && r.value.day == birth.day
    ensures r.Ok? ==> OnOrBefore(today, r.value)
    ensures r.Ok? ==> r.value.year == today.year || r.value.year == today.year + 1
    ensures r.Ok? && r.value.year == today.year + 1 ==>
              WithYear(birth, today.year).None? || !OnOrBefore(today, WithYear(birth, today.year).value)
    ensures r.Err? ==> r.error == NextYearUnrepresentable
    ensures r.Err? <==>
              WithYear(birth, today.year + 1).None?
              && (WithYear(birth, today.year).None? || !OnOrBefore(today, WithYear(birth, today.year).value))
  {
    match WithYear(birth, today.year)
    case Some(thisYear) =>
      if OnOrBefore(today, thisYear) then Ok(thisYear)
      else
        (match WithYear(birth, today.year + 1)
         case Some(nextYear) => Ok(nextYear)
         case None => Err(NextYearUnrepresentable))
    case None =>
      match WithYear(birth, today.year + 1)
      case Some(nextYear) => Ok(nextYear)
      case None => Err(NextYearUnrepresentable)
  }

  /** The occurrence found is the earliest anniversary on or after today:
      no year, earlier or later, has one that falls before it. */
  lemma NextOccurrenceIsEarliest(birth: Date, today: Date, y: int)
    requires NextOccurrence(birth, today).Ok?
    requires WithYear(birth, y).Some? && OnOrBefore(today, WithYear(birth, y).value)
    ensures OnOrBefore(NextOccurrence(birth, today).value, WithYear(birth, y).value)
  {
  }

  /** A failure happens only to a February 29 birthday, when the year after today's is a common year. */
  lemma NextOccurrenceFailsOnlyForLeapDay(birth: Date, today: Date)
    requires NextOccurrence(birth, today).Err?
    ensures birth.month == 2 && birth.day == 29
    ensures !IsLeapYear(today.year + 1)
  {
    WithYearFails(birth, today.year + 1);
  }

  /** Exactly when the calculation fails: a February 29 birthday, a common
      year after today's, and no February 29 still ahead this year, either
      because this year is common too or because it has passed. */
  lemma NextOccurrenceFailsExactly(birth: Date, today: Date)
    ensures NextOccurrence(birth, today).Err? <==>
              && birth.month == 2 && birth.day == 29
              && !IsLeapYear(today.year + 1)
              && (!IsLeapYear(today.year) || !OnOrBefore(today, CivilDate(today.year, 2, 29)))
  {
    WithYearFails(birth, today.year);
    WithYearFails(birth, today.year + 1);
  }

  /** A leap-day birthday already fails on March 1 of a leap year. */
  lemma LeapDayPassedInLeapYear()
    ensures CalculateBirthdayInfo(Some(CivilDate(2000, 2, 29)), CivilDate(2024, 3, 1)).Err?
  {
    NextOccurrenceFailsExactly(CivilDate(2000, 2, 29), CivilDate(2024, 3, 1));
  }

  lemma SameYearDistance(a: Date, b: Date)
    requires a.year == b.year && OnOrBefore(a, b)
    ensures 0 <= DaysBetween(a, b) < YearLength(a.year)
  {
    DayNumberOrder(a, b);
    DayOfYearBound(a);
    DayOfYearBound(b);
  }

  /** `calculate_birthday_info` with "today" already resolved to a date.
      The day count is the distance to the next occurrence; it is small,
      so its `as i32` cast never wraps. */
  function CalculateBirthdayInfo(birthdate: Option<Date>, today: Date): (r: Result<BirthdayInfo>)
    ensures birthdate.None? ==> r == Err(InvalidTimestamp)
    ensures birthdate.Some? ==> (r.Ok? <==> NextOccurrence(birthdate.value, today).Ok?)
    ensures r.Ok? ==>
              var occ := NextOccurrence(birthdate.value, today).value;
              && r.value.daysUntil == DaysBetween(today, occ)
              && r.value.ageTurning == occ.year - birthdate.value.year
    ensures r.Ok? ==> 0 <= r.value.daysUntil < 732
    ensures r.Err? ==> r.error == InvalidTimestamp || r.error == NextYearUnrepresentable
  {
    match birthdate
    case None => Err(InvalidTimestamp)
    case Some(birth) =>
      match NextOccurrence(birth, today)
      case Err(e) => Err(e)
      case Ok(occ) =>
        assert 0 <= DaysBetween(today, occ) < 732 by {
          if occ.year == today.year {
            SameYearDistance(today, occ);
          } else {
            DayNumberOrder(today, occ);
            NextYearDistance(today, occ);
          }
        }
        Ok(BirthdayInfo(RustInt.AsI32(DaysBetween(today, occ)), occ.year - birth.year))
  }

  /** The day count is zero exactly when today is the birthday. */
  lemma BirthdayIsToday(birth: Date, today: Date)
    requires CalculateBirthdayInfo(Some(birth), today).Ok?
    ensures (CalculateBirthdayInfo(Some(birth), today).value.daysUntil == 0)
        <==> (birth.month == today.month && birth.day == today.day)
  {
    var occ := NextOccurrence(birth, today).value;
    DayNumberOrder(today, occ);
    if birth.month == today.month && birth.day == today.day {
      assert WithYear(birth, today.year) == Some(today);
    }
  }

  /** The age turned is this year's age while this year's birthday is still
      ahead (or is today), and next year's age once it has passed or when
      it does not exist this year. */
  lemma AgeTurning(birth: Date, today: Date)
    requires CalculateBirthdayInfo(Some(birth), today).Ok?
    ensures var info := CalculateBirthdayInfo(Some(birth), today).value;
            var thisYear := WithYear(birth, today.year);
            if thisYear.Some? && OnOrBefore(today, thisYear.value)
            then info.ageTurning == today.year - birth.year
            else info.ageTurning == today.year + 1 - birth.year
  {
  }
}

=== FILE: rust_int.dfy ===
/**
 * Rust integer semantics the digest compiler relies on, written out over
 * Dafny's unbounded integers: the wrapping `as i32` cast, and the
 * truncating `/` and `%` (Dafny's own operators are Euclidean).
 */
module RustInt {

  const I32Modulus: int := 0x1_0000_0000
  const I32Min: int := -0x8000_0000
  const I32Max: int := 0x7FFF_FFFF

  /** `x as i32`: keep the low 32 bits and read them as two's complement. */
  function AsI32(x: int): (r: int)
    ensures I32Min <= r <= I32Max
    ensures (x - r) % I32Modulus == 0
    ensures I32Min <= x <= I32Max ==> r == x
  {
    (x - I32Min) % I32Modulus + I32Min
  }

  /** Rust's `a / b` on integers: the quotient rounded toward zero. */
  function TruncDiv(a: int, b: int): int
    requires b > 0
  {
    if a >= 0 then a / b else -((-a) / b)
  }

  /** Rust's `a % b` on integers: the remainder takes the sign of `a`. */
  function TruncRem(a: int, b: int): int
    requires b > 0
  {
    if a >= 0 then a % b else -((-a) % b)
  }

  /** Truncating division and remainder reassemble the dividend, with a
      remainder smaller than the divisor that never has the opposite sign. */
  lemma TruncDivRem(a: int, b: int)
    requires b > 0
    ensures a == b * TruncDiv(a, b) + TruncRem(a, b)
    ensures -b < TruncRem(a, b) < b
    ensures a >= 0 ==> TruncRem(a, b) >= 0
    ensures a <= 0 ==> TruncRem(a, b) <= 0
  {
  }
}

=== FILE: selector.dfy ===
/**
 * The candidate selector, `get_reminders_to_send`: compute each reminder's
 * next birthday in the user's local "today", keep those inside the notice
 * window, drop the ones whose calculation fails, and order the rest by
 * days until the birthday with a stable sort (`sort_by_key`).
 */
module Selector {
  import opened Wrappers
  import opened FilterMap
  import opened Calendar
  import opened Records
  import opened Recurrence
  import RustInt

  /** One upcoming birthday, as the composer renders it (`BirthdayReminder`). */
  datatype Candidate = Candidate(name: string, daysUntil: int, ageTurning: int)

  /** `days_until >= 0 && days_until <= user.days_notice as i32`. */
  predicate InWindow(daysUntil: int, daysNotice: int)
  {
    0 <= daysUntil <= RustInt.AsI32(daysNotice)
  }

  /** The candidate one reminder contributes, if any. */
  function CandidateOf(r: Reminder, today: Date, daysNotice: int): (c: Option<Candidate>)
    ensures c.Some? <==>
              CalculateBirthdayInfo(r.birthdate, today).Ok?
              && InWindow(CalculateBirthdayInfo(r.birthdate, today).value.daysUntil, daysNotice)
    ensures c.Some? ==>
              var info := CalculateBirthdayInfo(r.birthdate, today).value;
              c.value == Candidate(r.name, info.daysUntil, info.ageTurning)
  {
    match CalculateBirthdayInfo(r.birthdate, today)
    case Err(_) => None
    case Ok(info) =>
      if InWindow(info.daysUntil, daysNotice)
      then Some(Candidate(r.name, info.daysUntil, info.ageTurning))
      else None
  }

  /** The per-reminder step with today's date and the notice window fixed. */
  function Candidacy(today: Date, daysNotice: int): Reminder -> Option<Candidate>
  {
    r => CandidateOf(r, today, daysNotice)
  }

  /** The outcome of each reminder, position by position. */
  function CandidatesOf(rs: seq<Reminder>, today: Date, daysNotice: int): (o: seq<Option<Candidate>>)
    ensures |o| == |rs|
    ensures forall i :: 0 <= i < |rs| ==> o[i] == CandidateOf(rs[i], today, daysNotice)
  {
    Map(Candidacy(today, daysNotice), rs)
  }

  /** The candidates of `rs`, in reminder order, before sorting. */
  function Kept(rs: seq<Reminder>, today: Date, daysNotice: int): (cs: seq<Candidate>)
    ensures |cs| <= |rs|
    ensures forall c :: c in cs ==> InWindow(c.daysUntil, daysNotice)
  {
    var o := CandidatesOf(rs, today, daysNotice);
    var cs := Collect(o);
    assert forall c :: c in cs ==> InWindow(c.daysUntil, daysNotice) by {
      forall c | c in cs
        ensures InWindow(c.daysUntil, daysNotice)
      {
        var i :| 0 <= i < |o| && o[i] == Some(c);
      }
    }
    cs
  }

  /** Filtering works reminder by reminder: the candidates of two lists
      placed one after the other are those of the first, then those of the second. */
  lemma KeptAppend(a: seq<Reminder>, b: seq<Reminder>, today: Date, daysNotice: int)
    ensures Kept(a + b, today, daysNotice) == Kept(a, today, daysNotice) + Kept(b, today, daysNotice)
  {
    MapAppend(Candidacy(today, daysNotice), a, b);
    CollectAppend(CandidatesOf(a, today, daysNotice), CandidatesOf(b, today, daysNotice));
  }

  /** A candidate is kept exactly when some reminder produces it. */
  lemma KeptMembers(rs: seq<Reminder>, today: Date, daysNotice: int, c: Candidate)
    ensures c in Kept(rs, today, daysNotice) <==>
              exists i :: 0 <= i < |rs| && CandidateOf(rs[i], today, daysNotice) == Some(c)
  {
    CollectMembers(CandidatesOf(rs, today, daysNotice), c);
  }

  predicate SortedByDays(s: seq<Candidate>)
  {
    forall i, j :: 0 <= i < j < |s| ==> s[i].daysUntil <= s[j].daysUntil
  }

  /** The candidates of `s` due in exactly `d` days, in their order in `s`. */
  function WithDays(s: seq<Candidate>, d: int): seq<Candidate>
  {
    if |s| == 0 then []
    else WithDays(s[..|s| - 1], d) + (if s[|s| - 1].daysUntil == d then [s[|s| - 1]] else [])
  }

  lemma {:induction false} WithDaysAppend(a: seq<Candidate>, b: seq<Candidate>, d: int)
    ensures WithDays(a + b, d) == WithDays(a, d) + WithDays(b, d)
    decreases |b|
  {
    if |b| == 0 {
      assert a + b == a;
    } else {
      assert (a + b)[..|a + b| - 1] == a + b[..|b| - 1];
      WithDaysAppend(a, b[..|b| - 1], d);
    }
  }

  lemma {:induction false} WithDaysNone(s: seq<Candidate>, d: int)
    requires forall i :: 0 <= i < |s| ==> s[i].daysUntil > d
    ensures WithDays(s, d) == []
  {
    if |s| > 0 {
      WithDaysNone(s[..|s| - 1], d);
    }
  }

  /** Insert `c` after every element due no later than it. */
  function InsertByDays(s: seq<Candidate>, c: Candidate): (r: seq<Candidate>)
    requires SortedByDays(s)
    ensures SortedByDays(r)
    ensures multiset(r) == multiset(s) + multiset{c}
  {
    if |s| == 0 then [c]
    else if s[0].daysUntil > c.daysUntil then
      InFront(s, c);
      [c] + s
    else
      var rest := InsertByDays(s[1..], c);
      Behind(s, rest, c);
      [s[0]] + rest
  }

  /** `c`, due strictly before the head of a sorted `s`, can go in front of it. */
  lemma InFront(s: seq<Candidate>, c: Candidate)
    requires SortedByDays(s) && |s| > 0 && s[0].daysUntil > c.daysUntil
    ensures SortedByDays([c] + s)
  {
    var r := [c] + s;
    forall i, j | 0 <= i < j < |r|
      ensures r[i].daysUntil <= r[j].daysUntil
    {
      assert r[j] == s[j - 1];
      if i > 0 {
        assert r[i] == s[i - 1];
      }
    }
  }

  /** The head of a sorted `s`, due no later than `c`, can go in front of
      any sorted permutation of the rest of `s` with `c` added. */
  lemma Behind(s: seq<Candidate>, rest: seq<Candidate>, c: Candidate)
    requires SortedByDays(s) && |s| > 0 && s[0].daysUntil <= c.daysUntil
    requires SortedByDays(rest) && multiset(rest) == multiset(s[1..]) + multiset{c}
    ensures SortedByDays([s[0]] + rest)
    ensures multiset([s[0]] + rest) == multiset(s) + multiset{c}
  {
    assert s == [s[0]] + s[1..];
    forall j | 0 <= j < |rest|
      ensures s[0].daysUntil <= rest[j].daysUntil
    {
      assert rest[j] in multiset(rest);
      if rest[j] != c {
        assert rest[j] in multiset(s[1..]);
        var k :| 0 <= k < |s[1..]| && s[1..][k] == rest[j];
        assert s[1..][k] == s[k + 1];
      }
    }
    var r := [s[0]] + rest;
    forall i, j | 0 <= i < j < |r|
      ensures r[i].daysUntil <= r[j].daysUntil
    {
      assert r[j] == rest[j - 1];
      if i > 0 {
        assert r[i] == rest[i - 1];
      }
    }
  }

  lemma WithDaysSingle(c: Candidate, d: int)
    ensures WithDays([c], d) == if c.daysUntil == d then [c] else []
  {
    assert [c][..|[c]| - 1] == [];
  }

  /** Inserting `c` puts it behind every element with the same day count. */
  lemma {:induction false} InsertStable(s: seq<Candidate>, c: Candidate, d: int)
    requires SortedByDays(s)
    ensures WithDays(InsertByDays(s, c), d) == WithDays(s, d) + (if c.daysUntil == d then [c] else [])
  {
    WithDaysSingle(c, d);
    if |s| == 0 {
      assert InsertByDays(s, c) == [c];
    } else if s[0].daysUntil > c.daysUntil {
      InsertInFront(s, c, d);
    } else {
      InsertStable(s[1..], c, d);
      InsertUnfold(s, c);
      WithDaysBehind(s[0], s[1..], InsertByDays(s[1..], c), if c.daysUntil == d then [c] else [], d);
      assert [s[0]] + s[1..] == s;
    }
  }

  lemma InsertInFront(s: seq<Candidate>, c: Candidate, d: int)
    requires SortedByDays(s) && |s| > 0 && s[0].daysUntil > c.daysUntil
    requires WithDays([c], d) == if c.daysUntil == d then [c] else []
    ensures WithDays(InsertByDays(s, c), d) == WithDays(s, d) + (if c.daysUntil == d then [c] else [])
  {
    assert InsertByDays(s, c) == [c] + s;
    WithDaysAppend([c], s, d);
    if c.daysUntil == d {
      assert forall i :: 0 <= i < |s| ==> s[i].daysUntil > d by {
        assert forall i :: 0 <= i < |s| ==> s[0].daysUntil <= s[i].daysUntil;
      }
      WithDaysNone(s, d);
    }
  }

  /** Inserting behind the first element. */
  lemma InsertUnfold(s: seq<Candidate>, c: Candidate)
    requires SortedByDays(s) && |s| > 0 && s[0].daysUntil <= c.daysUntil
    ensures SortedByDays(s[1..])
    ensures InsertByDays(s, c) == [s[0]] + InsertByDays(s[1..], c)
  {
  }

  /** Putting the same element in front of two sequences keeps the
      relation between their candidates due on day `d`. */
  lemma WithDaysBehind(h: Candidate, t: seq<Candidate>, rest: seq<Candidate>, tail: seq<Candidate>, d: int)
    requires WithDays(rest, d) == WithDays(t, d) + tail
    ensures WithDays([h] + rest, d) == WithDays([h] + t, d) + tail
  {
    WithDaysAppend([h], rest, d);
    WithDaysAppend([h], t, d);
  }

  /** `sort_by_key(|r| r.days_until)`: a stable insertion sort. The result
      is ordered by day count, is a permutation of the input, and keeps the
      input order among candidates due on the same day. */
  function SortByDays(cs: seq<Candidate>): (r: seq<Candidate>)
    ensures SortedByDays(r)
    ensures multiset(r) == multiset(cs)
    ensures forall d :: WithDays(r, d) == WithDays(cs, d)
  {
    if |cs| == 0 then []
    else
      var init := SortByDays(cs[..|cs| - 1]);
      InsertLastPermutes(init, cs);
      assert forall d :: WithDays(InsertByDays(init, cs[|cs| - 1]), d) == WithDays(cs, d) by {
        forall d
          ensures WithDays(InsertByDays(init, cs[|cs| - 1]), d) == WithDays(cs, d)
        {
          InsertLastStable(init, cs, d);
        }
      }
      InsertByDays(init, cs[|cs| - 1])
  }

  /** One step of the sort: inserting the last candidate into a
      permutation of the rest gives a permutation of the whole. */
  lemma InsertLastPermutes(init: seq<Candidate>, cs: seq<Candidate>)
    requires |cs| > 0 && SortedByDays(init)
    requires multiset(init) == multiset(cs[..|cs| - 1])
    ensures multiset(InsertByDays(init, cs[|cs| - 1])) == multiset(cs)
  {
    assert cs == cs[..|cs| - 1] + [cs[|cs| - 1]];
  }

  /** One step of the sort: inserting the last candidate keeps, for each
      day count, the input order of the candidates due that day. */
  lemma InsertLastStable(init: seq<Candidate>, cs: seq<Candidate>, d: int)
    requires |cs| > 0 && SortedByDays(init)
    requires WithDays(init, d) == WithDays(cs[..|cs| - 1], d)
    ensures WithDays(InsertByDays(init, cs[|cs| - 1]), d) == WithDays(cs, d)
  {
    InsertStable(init, cs[|cs| - 1], d);
  }

  /** `get_reminders_to_send`: the in-window candidates of the user's
      reminders, computed against the user's local date, most urgent first;
      nothing when the user's zone does not resolve. */
  function GetRemindersToSend(user: User, reminders: seq<Reminder>, now: Instant, zones: ZoneLookup): (r: seq<Candidate>)
    ensures zones(now, user.ianaTz).None? ==> r == []
    ensures zones(now, user.ianaTz).Some? ==>
              var kept := Kept(reminders, zones(now, user.ianaTz).value.date, user.daysNotice);
              && multiset(r) == multiset(kept)
              && forall d :: WithDays(r, d) == WithDays(kept, d)
    ensures SortedByDays(r)
    ensures forall c :: c in r ==> InWindow(c.daysUntil, user.daysNotice)
  {
    match zones(now, user.ianaTz)
    case None => []
    case Some(local) =>
      var kept := Kept(reminders, local.date, user.daysNotice);
      var r := SortByDays(kept);
      assert forall c :: c in r ==> c in kept by {
        forall c | c in r
          ensures c in kept
        {
          assert c in multiset(r);
        }
      }
      r
  }

  /** Exactly the successfully computed, in-window candidates are selected. */
  lemma SelectedExactly(user: User, reminders: seq<Reminder>, now: Instant, zones: ZoneLookup, c: Candidate)
    ensures c in GetRemindersToSend(user, reminders, now, zones) <==>
              && zones(now, user.ianaTz).Some?
              && exists i :: 0 <= i < |reminders|
                   && CandidateOf(reminders[i], zones(now, user.ianaTz).value.date, user.daysNotice) == Some(c)
  {
    var r := GetRemindersToSend(user, reminders, now, zones);
    if zones(now, user.ianaTz).Some? {
      var today := zones(now, user.ianaTz).value.date;
      KeptMembers(reminders, today, user.daysNotice, c);
      assert c in r <==> c in multiset(r);
      assert c in Kept(reminders, today, user.daysNotice) <==> c in multiset(Kept(reminders, today, user.daysNotice));
    }
  }
}

=== FILE: send_gate.dfy ===
/**
 * The send gate: `is_send_time_for_user` (is it the user's chosen local
 * hour?) and `was_notified_recently` (12-hour cooldown since the last
 * delivered digest).
 */
module SendGate {
  import opened Wrappers
  import opened Records
  import RustInt

  const NanosPerSecond: int := 1_000_000_000
  const SecondsPerHour: int := 3600
  const NanosPerHour: int := NanosPerSecond * SecondsPerHour
  const CooldownHours: int := 12

  /** The local hour equals `send_hour`; an unresolvable zone keeps the gate closed. */
  function IsSendTime(user: User, now: Instant, zones: ZoneLookup): (r: bool)
    ensures r ==> 0 <= user.sendHour < 24
    ensures r <==> zones(now, user.ianaTz).Some? && zones(now, user.ianaTz).value.hour == user.sendHour
  {
    match zones(now, user.ianaTz)
    case None => false
    case Some(local) => local.hour == user.sendHour
  }

  /** The gate opens in at most one local hour: two instants that both pass
      read the same hour on the user's clock. */
  lemma OneSendHour(user: User, t1: Instant, t2: Instant, zones: ZoneLookup)
    requires IsSendTime(user, t1, zones) && IsSendTime(user, t2, zones)
    ensures zones(t1, user.ianaTz).value.hour == zones(t2, user.ianaTz).value.hour
  {
  }

  /** `(now - last).num_hours()`: whole seconds truncated toward zero, then
      whole hours truncated toward zero. */
  function HoursSince(last: Instant, now: Instant): (h: int)
    ensures now - last >= 0 ==> h == (now - last) / NanosPerHour
    ensures now - last < 0 ==> h == -((last - now) / NanosPerHour)
  {
    RustInt.TruncDiv(RustInt.TruncDiv(now - last, NanosPerSecond), SecondsPerHour)
  }

  /** Truncated whole hours stay below the cooldown exactly when less than
      twelve hours have elapsed; a negative elapsed time always does. */
  lemma HoursSinceBelowCooldown(last: Instant, now: Instant)
    ensures HoursSince(last, now) < CooldownHours <==> now - last < CooldownHours * NanosPerHour
  {
    var elapsed := now - last;
    if elapsed >= 0 {
      var secs := elapsed / NanosPerSecond;
      assert secs / SecondsPerHour < CooldownHours <==> secs < CooldownHours * SecondsPerHour;
      assert secs < CooldownHours * SecondsPerHour <==> elapsed < CooldownHours * NanosPerHour;
    } else {
      assert RustInt.TruncDiv(elapsed, NanosPerSecond) <= 0;
    }
  }

  /** `was_notified_recently`: a missing or unparseable `last_digest_at`
      never counts as recent; otherwise recent means fewer than twelve
      whole hours since it. The stored text is parsed with a `Z` appended. */
  function WasNotifiedRecently(user: User, now: Instant, parse: Rfc3339Parser): (r: bool)
    ensures r ==> user.lastDigestAt.Some? && parse(user.lastDigestAt.value + "Z").Some?
  {
    match user.lastDigestAt
    case None => false
    case Some(stamp) =>
      match parse(stamp + "Z")
      case None => false
      case Some(last) => HoursSince(last, now) < CooldownHours
  }

  /** The cooldown in plain terms: recent exactly when a parseable last
      delivery lies less than twelve hours before now, including one that
      lies in the future. */
  lemma CooldownWindow(user: User, now: Instant, parse: Rfc3339Parser)
    ensures WasNotifiedRecently(user, now, parse) <==>
              && user.lastDigestAt.Some?
              && parse(user.lastDigestAt.value + "Z").Some?
              && now - parse(user.lastDigestAt.value + "Z").value < CooldownHours * NanosPerHour
  {
    if user.lastDigestAt.Some? && parse(user.lastDigestAt.value + "Z").Some? {
      HoursSinceBelowCooldown(parse(user.lastDigestAt.value + "Z").value, now);
    }
  }

  /** A delivery recorded at `sent` blocks every evaluation before
      `sent` + 12 h and none from then on. */
  lemma CooldownAfterDelivery(user: User, sent: Instant, now: Instant, parse: Rfc3339Parser)
    requires user.lastDigestAt.Some? && parse(user.lastDigestAt.value + "Z") == Some(sent)
    ensures WasNotifiedRecently(user, now, parse) <==> now < sent + CooldownHours * NanosPerHour
  {
    CooldownWindow(user, now, parse);
  }
}

=== FILE: settings.dfy ===
/**
 * The settings update handler (`update_settings`) after authentication:
 * validate the submitted notice period, send hour and zone, in that order,
 * re-rendering the form with the first error; hand accepted values to the
 * store, then redirect on success or re-render with a save error.
 */
module Settings {
  import opened Wrappers
  import opened Records
  import RustInt

  /** The submitted form (`SettingsForm`). */
  datatype SettingsForm = SettingsForm(daysNotice: int, sendHour: int, ianaTz: string)

  /** The rendered settings page (`SettingsTemplate`). */
  datatype SettingsPage = SettingsPage(
    errorMessage: string,
    successMessage: string,
    daysNotice: int,
    sendHour: int,
    ianaTz: string)

  const DaysNoticeError := "Days notice must be between 1 and 14"
  const SendHourError := "Send hour must be between 0 and 23"
  const TimezoneError := "Invalid timezone selected"
  const SaveError := "Failed to save settings. Please try again."
  const SavedLocation := "/settings?success=1"

  /** The zones a user may pick: the six US zones. */
  const ValidTimezones: seq<string> := [
    "America/New_York",
    "America/Chicago",
    "America/Denver",
    "America/Los_Angeles",
    "America/Anchorage",
    "Pacific/Honolulu"
  ]

  predicate DaysNoticeOk(f: SettingsForm) { 1 <= f.daysNotice <= 14 }
  predicate SendHourOk(f: SettingsForm) { 0 <= f.sendHour <= 23 }
  predicate TimezoneOk(f: SettingsForm) { f.ianaTz in ValidTimezones }

  /** The form re-rendered with an error, echoing what was submitted. */
  function ErrorPage(f: SettingsForm, message: string): (p: SettingsPage)
    ensures p.errorMessage == message && p.successMessage == ""
    ensures p.daysNotice == f.daysNotice && p.sendHour == f.sendHour && p.ianaTz == f.ianaTz
  {
    SettingsPage(message, "", f.daysNotice, f.sendHour, f.ianaTz)
  }

  datatype Validation = Accepted(form: SettingsForm) | Rejected(page: SettingsPage)

  /** The three checks, first failure wins. */
  function ValidateSettings(f: SettingsForm): (v: Validation)
    ensures v.Accepted? <==> DaysNoticeOk(f) && SendHourOk(f) && TimezoneOk(f)
    ensures v.Accepted? ==> v.form == f
    ensures v.Rejected? ==> v.page == ErrorPage(f, v.page.errorMessage)
    ensures v.Rejected? ==> (v.page.errorMessage == DaysNoticeError <==> !DaysNoticeOk(f))
    ensures v.Rejected? ==> (v.page.errorMessage == SendHourError <==> DaysNoticeOk(f) && !SendHourOk(f))
    ensures v.Rejected? ==> (v.page.errorMessage == TimezoneError <==> DaysNoticeOk(f) && SendHourOk(f))
  {
    if f.daysNotice < 1 || f.daysNotice > 14 then Rejected(ErrorPage(f, DaysNoticeError))
    else if f.sendHour < 0 || f.sendHour > 23 then Rejected(ErrorPage(f, SendHourError))
    else if f.ianaTz !in ValidTimezones then Rejected(ErrorPage(f, TimezoneError))
    else Accepted(f)
  }

  datatype Response = Redirect(location: string) | Page(page: SettingsPage)

  /** What the handler asks the store to write, if anything. */
  function StoredSettings(f: SettingsForm): (w: Option<SettingsForm>)
    ensures w.Some? <==> ValidateSettings(f).Accepted?
    ensures w.Some? ==> w.value == f
  {
    match ValidateSettings(f)
    case Accepted(form) => Some(form)
    case Rejected(_) => None
  }

  /** `update_settings` for an authenticated user; `saved` is whether the
      store accepted the write. */
  function UpdateSettings(f: SettingsForm, saved: bool): (r: Response)
    ensures r.Redirect? <==> ValidateSettings(f).Accepted? && saved
    ensures r.Redirect? ==> r.location == SavedLocation
    ensures r.Page? && ValidateSettings(f).Accepted? ==> r.page == ErrorPage(f, SaveError)
    ensures r.Page? && ValidateSettings(f).Rejected? ==> r.page == ValidateSettings(f).page
  {
    match ValidateSettings(f)
    case Rejected(page) => Page(page)
    case Accepted(form) => if saved then Redirect(SavedLocation) else Page(ErrorPage(form, SaveError))
  }

  /** A rejected form is answered the same way whatever the store would do,
      because nothing is written. */
  lemma RejectedNeverStored(f: SettingsForm, saved: bool)
    requires ValidateSettings(f).Rejected?
    ensures StoredSettings(f).None?
    ensures UpdateSettings(f, saved) == UpdateSettings(f, !saved)
  {
  }

  /** Stored settings are what the digest sweep relies on: a notice period
      that the `as i32` cast keeps as is, a send hour the clock can show,
      and a zone from the list. */
  lemma StoredSettingsSound(f: SettingsForm)
    requires StoredSettings(f).Some?
    ensures RustInt.AsI32(f.daysNotice) == f.daysNotice
    ensures 0 <= f.sendHour < 24
    ensures f.ianaTz in ValidTimezones
  {
  }

  /** The error messages are distinct, so a page names exactly one failed check. */
  lemma ErrorMessagesDistinct()
    ensures DaysNoticeError != SendHourError && SendHourError != TimezoneError
    ensures DaysNoticeError != TimezoneError && SaveError != DaysNoticeError
    ensures SaveError != SendHourError && SaveError != TimezoneError
  {
    assert DaysNoticeError[0] == 'D' && SendHourError[0] == 'S';
    assert TimezoneError[0] == 'I' && SaveError[0] == 'F';
  }
}

=== FILE: text.dfy ===
/**
 * Text helpers shared by the composer and the display conversion: byte
 * lengths as Rust's `str::len` reports them, and the decimal rendering of
 * integers that `format!("{}", n)` produces, with the digit reading that
 * inverts it.
 */
module Text {

  /** One byte of a Rust `String`, which stores its text as UTF-8. */
  newtype byte = b: int | 0 <= b < 0x100

  /** The UTF-8 encoding of one character (section 3 of RFC 3629): one byte
      below U+0080, two below U+0800, three below U+10000, four above. */
  function CharUtf8(c: char): (bs: seq<byte>)
    ensures 1 <= |bs| <= 4
    ensures |bs| == 1 <==> c as int < 0x80
  {
    var n := c as int;
    if n < 0x80 then [n as byte]
    else if n < 0x800 then [(0xC0 + n / 0x40) as byte, (0x80 + n % 0x40) as byte]
    else if n < 0x1_0000 then
      [(0xE0 + n / 0x1000) as byte, (0x80 + n / 0x40 % 0x40) as byte, (0x80 + n % 0x40) as byte]
    else
      [(0xF0 + n / 0x4_0000) as byte, (0x80 + n / 0x1000 % 0x40) as byte,
       (0x80 + n / 0x40 % 0x40) as byte, (0x80 + n % 0x40) as byte]
  }

  /** The bytes of a `String` holding `s`; `String::len` is their count. */
  function Utf8(s: string): (bs: seq<byte>)
    ensures |s| <= |bs| <= 4 * |s|
  {
    if |s| == 0 then [] else Utf8(s[..|s| - 1]) + CharUtf8(s[|s| - 1])
  }

  /** Encoding works character by character, so `format!` concatenation
      of strings is concatenation of their bytes. */
  lemma {:induction false} Utf8Append(a: string, b: string)
    ensures Utf8(a + b) == Utf8(a) + Utf8(b)
    decreases |b|
  {
    if |b| == 0 {
      assert a + b == a;
    } else {
      var b' := b[..|b| - 1];
      assert (a + b)[..|a + b| - 1] == a + b';
      assert (a + b)[|a + b| - 1] == b[|b| - 1];
      calc {
        Utf8(a + b);
        Utf8(a + b') + CharUtf8(b[|b| - 1]);
        { Utf8Append(a, b'); }
        Utf8(a) + Utf8(b') + CharUtf8(b[|b| - 1]);
        Utf8(a) + (Utf8(b') + CharUtf8(b[|b| - 1]));
      }
    }
  }

  predicate IsAscii(s: string)
  {
    forall i :: 0 <= i < |s| ==> s[i] as int < 0x80
  }

  /** Text written only with ASCII characters, one byte per character. */
  function AsciiBytes(s: string): (bs: seq<byte>)
    ensures |bs| == |s|
  {
    seq(|s|, i requires 0 <= i < |s| => (s[i] as int % 0x100) as byte)
  }

  /** For ASCII text the one-byte-per-character reading is the UTF-8
      encoding, and only then: any other character takes more bytes. */
  lemma {:induction false} AsciiBytesAreUtf8(s: string)
    ensures IsAscii(s) <==> |Utf8(s)| == |s|
    ensures IsAscii(s) ==> AsciiBytes(s) == Utf8(s)
  {
    if |s| > 0 {
      var init := s[..|s| - 1];
      var last := s[|s| - 1];
      AsciiBytesAreUtf8(init);
      assert IsAscii(s) <==> IsAscii(init) && last as int < 0x80;
      if IsAscii(s) {
        assert AsciiBytes(s) == AsciiBytes(init) + [last as int as byte];
      }
    }
  }

  lemma AsciiAppend(a: string, b: string)
    requires IsAscii(a) && IsAscii(b)
    ensures IsAscii(a + b)
  {
  }

  predicate IsDigit(c: char)
  {
    '0' <= c <= '9'
  }

  predicate AllDigits(s: string)
  {
    forall i :: 0 <= i < |s| ==> IsDigit(s[i])
  }

  function DigitChar(d: nat): (c: char)
    requires d <= 9
    ensures IsDigit(c) && c as int - '0' as int == d
  {
    (d + '0' as int) as char
  }

  /** The number a string of decimal digits denotes. */
  function DigitsValue(s: string): nat
    requires AllDigits(s)
  {
    if |s| == 0 then 0
    else DigitsValue(s[..|s| - 1]) * 10 + (s[|s| - 1] as int - '0' as int)
  }

  /** A digit string in the form `format!` prints: at least one digit, and
      no leading zero unless the number is zero itself. */
  predicate Canonical(s: string)
  {
    1 <= |s| && AllDigits(s) && (|s| > 1 ==> s[0] != '0')
  }

  lemma DigitsAscii(s: string)
    requires AllDigits(s)
    ensures IsAscii(s)
  {
    assert forall i :: 0 <= i < |s| ==> IsDigit(s[i]);
  }

  /** Decimal rendering of a natural number, most significant digit first. */
  function NatToString(n: nat): (s: string)
    ensures Canonical(s)
    ensures DigitsValue(s) == n
  {
    if n < 10 then [DigitChar(n)]
    else
      var front := NatToString(n / 10);
      var s := front + [DigitChar(n % 10)];
      assert s[..|s| - 1] == front;
      assert |front| == 1 ==> DigitsValue(front) == front[0] as int - '0' as int;
      s
  }

  /** `format!("{}", i)` for a signed integer: a minus sign exactly for a
      negative number, then the canonical digits of its magnitude. */
  function IntToString(i: int): (s: string)
    ensures i >= 0 ==> Canonical(s) && DigitsValue(s) == i
    ensures i < 0 ==> |s| >= 2 && s[0] == '-' && Canonical(s[1..]) && DigitsValue(s[1..]) == -i
  {
    var digits := NatToString(if i < 0 then -i else i);
    if i < 0 then
      assert ("-" + digits)[1..] == digits;
      "-" + digits
    else digits
  }

  /** A canonical digit string of at least one nonzero leading digit denotes a positive number. */
  lemma {:induction false} LeadingDigitPositive(s: string)
    requires Canonical(s) && s[0] != '0'
    ensures DigitsValue(s) >= 1
    decreases |s|
  {
    if |s| > 1 {
      var front := s[..|s| - 1];
      assert front[0] == s[0];
      LeadingDigitPositive(front);
    }
  }

  /** The other half of the round trip: a canonical digit string is the
      rendering of the number it denotes, so `NatToString` is the only
      canonical decimal form. */
  lemma {:induction false} CanonicalRoundTrip(s: string)
    requires Canonical(s)
    ensures NatToString(DigitsValue(s)) == s
    decreases |s|
  {
    var n := DigitsValue(s);
    var last := s[|s| - 1] as int - '0' as int;
    if |s| == 1 {
      assert s[..0] == [];
      assert DigitsValue(s) == DigitsValue(s[..0]) * 10 + last;
      assert DigitChar(n) == s[0];
    } else {
      var front := s[..|s| - 1];
      assert front[0] == s[0];
      if |front| > 1 {
        assert front[0] != '0';
      }
      LeadingDigitPositive(s);
      LeadingDigitPositive(front);
      assert n == DigitsValue(front) * 10 + last;
      assert n / 10 == DigitsValue(front) && n % 10 == last;
      CanonicalRoundTrip(front);
      assert s == front + [s[|s| - 1]];
    }
  }

  function Zeros(k: nat): (s: string)
    ensures |s| == k && AllDigits(s)
  {
    if k == 0 then "" else Zeros(k - 1) + "0"
  }

  /** Decimal digits of `n`, zero-padded on the left to at least `width` characters. */
  function PadNat(n: nat, width: nat): (s: string)
    ensures AllDigits(s)
    ensures |s| == if |NatToString(n)| < width then width else |NatToString(n)|
  {
    var digits := NatToString(n);
    if |digits| < width then Zeros(width - |digits|) + digits else digits
  }

  /** Leading zeros do not change the number a digit string denotes. */
  lemma {:induction false} LeadingZeros(k: nat, s: string)
    requires AllDigits(s)
    ensures AllDigits(Zeros(k) + s)
    ensures DigitsValue(Zeros(k) + s) == DigitsValue(s)
    decreases |s|
  {
    var z := Zeros(k);
    if |s| == 0 {
      assert z + s == z;
      ZerosValue(k);
    } else {
      var s' := s[..|s| - 1];
      assert (z + s)[..|z + s| - 1] == z + s';
      LeadingZeros(k, s');
    }
  }

  lemma {:induction false} ZerosValue(k: nat)
    ensures DigitsValue(Zeros(k)) == 0
  {
    if k > 0 {
      assert Zeros(k)[..k - 1] == Zeros(k - 1);
      ZerosValue(k - 1);
    }
  }

  /** Padding keeps the value: reading a padded rendering gives `n` back. */
  lemma PadNatRoundTrip(n: nat, width: nat)
    ensures DigitsValue(PadNat(n, width)) == n
  {
    var digits := NatToString(n);
    if |digits| < width {
      LeadingZeros(width - |digits|, digits);
    }
  }

  /** `n` has at most `k` decimal digits exactly when it is below 10^k; stated for the widths used here. */
  lemma NatToStringShort(n: nat)
    ensures n < 10 ==> |NatToString(n)| == 1
    ensures 10 <= n < 100 ==> |NatToString(n)| == 2
    ensures 100 <= n < 1000 ==> |NatToString(n)| == 3
    ensures 1000 <= n < 10000 ==> |NatToString(n)| == 4
  {
  }

  /** Distinct integers are rendered differently. */
  lemma IntToStringInjective(a: int, b: int)
    requires IntToString(a) == IntToString(b)
    ensures a == b
  {
  }
}

=== FILE: wrappers.dfy ===
/** The optional value used wherever the source returns `Option<_>`. */
module Wrappers {

  datatype Option<+T> = None | Some(value: T)
}
